=== FILE: README.md ===
# User Management service: a Dafny model

This project models the core of a Gin/GORM user-management HTTP service written in Go. The model covers:

- **Admission pipeline.** A request passes through:
  - the per-IP fixed-window rate limiter, which every path except those under `/swagger` goes through;
  - the route table;
  - JWT authentication;
  - the `X-User-ID` role allow-list (`Authorize`).

  `RequireRole` and `RequireAnyRole` are modelled too.
- **Handlers.** These are the users, groups, registration/login and activity-log handlers. Each is modelled as a status-code outcome over an in-memory database.
- **Activity logging.** The three `LogAction` variants.
- **Start-up seeding.** The default roles and the administrator account.
- **Input handling.** `SanitizeInput` and the DTO binding rules and `Sanitize` methods.
- **Table constraints.** The constraints the model structs declare.

## The model

- **Database.** It is `Store.Database`, a class with:
  - maps from primary key to row for users, roles and groups;
  - the `group_users` join table as a sequence of rows;
  - the activity log as an append-only sequence;
  - one auto-increment counter per table.

  Every GORM call a handler makes is a method of that class:
  - its `modifies` clause names only the table it writes;
  - a `fault` parameter stands for a failure of the database itself;
  - constraint violations (duplicate email, duplicate name, the join table's foreign keys) follow from the table contents.

  `Database.Valid()` gathers the table invariants: unique email, unique role name, unique group name, keys below the counter, and foreign keys.
- **Rate limiter.** `RateLimiter.Limiter` is a class whose `clients` map the limiter updates in place. Time is an integer number of seconds.
- **Request context.** `Http.Context` is a class with the `userID` and `currentUser` slots of the Gin context. Identities are carried as (id, role name).
- **Oracles.** These are passed in as function-valued parameters:
  - the JWT verifier and signer;
  - bcrypt hashing and comparison;
  - the email-format validator.
- **Paths.** A request path is the sequence of its segments. Routes match it segment by segment, with `:param` and `*any` segments.

## Model

| member | source | states |
|---|---|---|
| Text.TrimPrefix | internal/middleware/jwt.go:25 | with the prefix present, prefix + result is the header; otherwise the header is returned unchanged |
| Text.ParseId | internal/middleware/authorize.go:21 | a key string names a row exactly when it is a non-empty run of decimal digits |
| Models.FindById | internal/handlers/user.go:143 | `First(&row, param)` finds a row iff the parameter parses to a key present in the table, and then returns that row |
| Models.FindUserByEmail | internal/handlers/auth.go:77 | none iff no user has the email; otherwise a stored user with that email |
| Models.FindRoleByName | internal/handlers/user.go:265 | none iff no role has the name; otherwise a stored role with that name |
| Models.FindUserByStoredEmail | internal/models/user.go:11 | with unique emails, the lookup by a stored email returns exactly that row |
| Models.FindRoleByStoredName | internal/models/role.go:5 | with unique names, the lookup by a stored role name returns exactly that role |
| Models.UsersOfRole | internal/models/role.go:7 | Role.Users holds exactly the users whose RoleID is the role's ID |
| Models.UserInExactlyOneRole | internal/models/user.go:13-14 | each user is among the Users of one role, the one its RoleID names |
| Models.MemberIds | internal/models/group.go:11 | a user ID is listed for a group iff a join row links them |
| Models.GroupIdsOf | internal/models/user.go:16 | a group ID is listed for a user iff a join row links them |
| Models.MembershipIsSymmetric | internal/models/user.go:16 | User.Groups and Group.Users are one relation: each side lists the other under the same condition |
| Models.WithoutGroup | internal/handlers/group.go:145 | clearing a group's users keeps exactly the rows of other groups and keeps the table duplicate-free |
| Models.WithoutRow | internal/handlers/group.go:269 | deleting a membership keeps exactly the other rows and keeps the table duplicate-free |
| Store.WithNameEmail | internal/handlers/user.go:167-170 | a struct update writes only non-empty Name and Email; ID, hash, role and ban flag are kept |
| Store.Database.CreateUser | internal/models/user.go:11-15 | an insert succeeds iff there is no fault, the email is free and the role exists; the row gets the next key and IsBanned false; nothing changes otherwise |
| Store.Database.SaveUser | internal/handlers/user.go:275 | a save writes the row iff there is no fault, the email is not another user's and the role exists |
| Store.Database.UpdateNameEmail | internal/handlers/user.go:167-170 | an update succeeds iff there is no fault and a new email is not another user's; only Name and Email change |
| Store.Database.DeleteUser | internal/handlers/user.go:216 | a hard delete removes the row iff there is no fault and no join row refers to the user |
| Store.Database.CreateRole | internal/models/role.go:4-5 | an insert succeeds iff there is no fault and the name is free; the role gets the next key |
| Store.Database.CreateGroup | internal/models/group.go:9-10 | an insert succeeds iff there is no fault and no group has the name, so a second group with the same name fails |
| Store.Database.SaveGroup | internal/handlers/group.go:111 | a save writes the group iff there is no fault and the name is not another group's |
| Store.Database.DeleteGroup | internal/handlers/group.go:151 | a hard delete removes the group iff there is no fault and no join row refers to it |
| Store.Database.ClearMembers | internal/handlers/group.go:145 | on success the join table loses exactly the group's rows |
| Store.Database.AppendMember | internal/handlers/group.go:208 | on success the (group, user) row is present, added once, with other rows kept |
| Store.Database.DeleteMember | internal/handlers/group.go:269 | on success the join table loses exactly that (group, user) row |
| Store.Database.CreateLog | internal/services/activity_logger.go:17 | on success exactly one record is appended; on failure the log is unchanged |
| RateLimiter.Count | internal/middleware/rate_limiter.go:29-40 | an unseen IP starts at count 1 with reset now+60; within the window the count rises by one; after expiry it restarts at 1 with reset now+60 |
| RateLimiter.Limiter.Handle | internal/middleware/rate_limiter.go:24-53 | only the caller's entry changes, no entry is removed, and the request is refused with 429 iff its post-increment count exceeds 60 |
| RateLimiter.WindowDecisions | internal/middleware/rate_limiter.go:40-49 | inside one window, request i is admitted iff count+i+1 <= 60, and the entry ends at count+n with its reset time unchanged |
| RateLimiter.AdmittedCount | internal/middleware/rate_limiter.go:40-49 | inside one window the number admitted is min(n, 60 - count), floored at zero |
| RateLimiter.SixtyPerWindow | internal/middleware/rate_limiter.go:20 | from a fresh entry, exactly the first 60 requests of a window are admitted and every later one is refused |
| RateLimiter.ExpiredWindowRestarts | internal/middleware/rate_limiter.go:35-38 | a request strictly after the reset time restarts the window and is admitted |
| RateLimiter.ResetTimeMovesOnlyOnExpiry | internal/middleware/rate_limiter.go:35-38 | the reset time changes only when the window has expired (not at the reset instant itself) |
| Jwt.Authenticate | internal/middleware/jwt.go:17-66 | success requires the `Bearer ` prefix, a verified token whose user ID is stored, and the identity's role is the stored row's role |
| Jwt.JWTAuthMiddleware | internal/middleware/jwt.go:15-71 | on failure: 401 and the context is untouched; on success: Next with userID and currentUser set to the authenticated identity |
| Jwt.MissingBearerIsUnauthorized | internal/middleware/jwt.go:17-23 | an empty header or one without `Bearer ` (space included) is unauthorized |
| Jwt.VerifierSeesToken | internal/middleware/jwt.go:25-26 | the verifier is handed the header with one `Bearer ` removed, so verifiers that agree on that token decide alike |
| Jwt.BadTokenOrUnknownUserIsUnauthorized | internal/middleware/jwt.go:30-60 | a rejected token, or a userID claim with no stored user, is unauthorized |
| Jwt.StoredUserIsAuthenticated | internal/middleware/jwt.go:54-66 | a verified token of a stored user authenticates as (ID, stored role name), and a banned user is admitted alike |
| Authorization.HeaderUser | internal/middleware/authorize.go:13-25 | a user is found iff the X-User-ID header is non-empty, numeric and names a stored key |
| Authorization.AuthorizeDecision | internal/middleware/authorize.go:11-41 | the outcome is 401 iff no user is found; otherwise Next iff the stored role name is in the allow-list, else 403 |
| Authorization.Authorize | internal/middleware/authorize.go:11-41 | the loop decides as AuthorizeDecision; a found user's ID and identity are written to the context before the role test, so they stay set on 403 |
| Authorization.EmptyAllowListForbidsEveryone | internal/middleware/authorize.go:31-39 | with no allowed roles every existing user gets 403 |
| RoleGates.AnyRoleMatches | internal/middleware/roles.go:40-45 | the search finds the role iff it is in the list |
| RoleGates.RequireRole | internal/middleware/roles.go:10-28 | 401 without an identity; otherwise Next iff the role equals the required one exactly, else 403 |
| RoleGates.RequireAnyRole | internal/middleware/roles.go:30-49 | 401 without an identity, before any role is tested; otherwise Next iff the role is in the list, else 403 |
| RoleGates.RequireRoleIsAnyRoleOfOne | internal/middleware/roles.go:10-49 | RequireRole(r) and RequireAnyRole(r) agree for every identity |
| RoleGates.NoRoleHierarchy | internal/middleware/roles.go:20 | "admin" does not pass a "moderator" gate, and "moderator" does not pass an "admin" gate |
| RoleGates.NoRolesForbidsEveryone | internal/middleware/roles.go:40-47 | RequireAnyRole with no roles refuses every identity with 403 |
| Routes.AuthRoutes | internal/routes/auth.go:8-12 | exactly two public POST routes: /auth/register to Register and /auth/login to Login |
| Routes.UserRoutes | internal/routes/user_routes.go:9-25 | nine /users routes, all behind JWT; only /me lacks a role gate; GET / and PUT /:id allow admin and moderator; the rest allow admin only |
| Routes.GroupRoutes | internal/routes/group_routes.go:9-23 | six /groups routes, all behind JWT and admin-or-moderator, covering every group handler |
| Routes.MainRoutes | cmd/api/main.go:53-56 | /swagger/*any and /docs are GET routes with no gates |
| Routes.Resolve | internal/routes/user_routes.go:13-23 | a resolved route is in the table, has the request's method and matches the path; none means no route matches |
| Routes.GroupHandlersAreAdminOrModerator | internal/routes/group_routes.go:14-21 | every route to a group handler requires JWT and exactly admin or moderator |
| Routes.UsersRoleOnlyReachesProfile | internal/routes/user_routes.go:13-23 | every JWT route except GET /users/me has an allow-list without "user" |
| Routes.AuthRoutesArePublic | internal/routes/auth.go:9-11 | every /auth route is one of the two auth routes, with no JWT and no role gate |
| Server.RawPathStartsWithSlash | cmd/api/main.go:43 | the rebuilt URL path is empty only for the root and otherwise starts with "/" |
| Server.BypassIsFirstSegmentPrefix | cmd/api/main.go:42-47 | a path bypasses the limiter iff its first segment starts with "swagger", so "/swaggerx" bypasses it too |
| Server.RouteOutcome | internal/routes/user_routes.go:11-23 | a handler runs only after every gate of its route admits; the outcome is no route iff nothing matches; refusals are 401 or 403 |
| Server.Outcome | cmd/api/main.go:42-50 | the outcome is 429 iff the path does not start with "/swagger" and the limiter refuses; otherwise the route outcome |
| Server.ClientsAfter | cmd/api/main.go:42-47 | paths starting with "/swagger" leave the limiter map as it was; every other path updates the caller's entry |
| Server.Serve | cmd/api/main.go:42-50 | serving a request yields Outcome and advances the limiter as ClientsAfter says; the context is untouched on no route or 429 (after a 401 from JWT it is untouched too; after a 401 from Authorize it holds the token's identity; after a 403 it holds the X-User-ID row's identity); a route with neither gate leaves it untouched whatever the outcome; a dispatched JWT-only route (GetProfile) leaves the token's identity as userID and currentUser; a dispatched Authorize route, and a 403, leave the X-User-ID row's ID as userID and its identity as currentUser |
| Server.GroupHandlersNeedAdminOrModerator | internal/routes/group_routes.go:14-21 | a request dispatched to a group handler carried an X-User-ID naming a stored row whose role is admin or moderator; the token's own account is not constrained |
| Server.UserRoleOnlyReachesProfile | internal/routes/user_routes.go:13-23 | a request whose X-User-ID row has role user reaches only GetProfile among the JWT routes, whatever account the token belongs to |
| Server.SwaggerSkipsRateLimiter | cmd/api/main.go:42-46 | a path whose first segment starts with "swagger" never touches the limiter, and its outcome does not depend on the limiter's state |
| Server.DocsIsRateLimitedAndRedirects | cmd/api/main.go:43-56 | /docs does not bypass the limiter, and once admitted it answers 301 to /swagger/index.html |
| Server.DeleteUserRouteResolves | internal/routes/user_routes.go:18 | DELETE /users/:id resolves to the admin-only, JWT-guarded DeleteUser route |
| Server.HeaderRoleOpensAdminRoute | internal/middleware/authorize.go:13-34 | any admitted request with a valid token and an X-User-ID naming an admin row is dispatched to DeleteUser on DELETE /users/:id, whatever the token's account role |
| Server.SampleRequestOverridesRole | internal/middleware/authorize.go:13-34 | a concrete request: the token names account 1 of role user while X-User-ID names account 2 of role admin |
| Server.TokenIdentity | internal/middleware/jwt.go:17-66 | there is a token identity iff JWT authentication succeeds |
| Server.TokenGatedOutcome | internal/routes/user_routes.go:11-23 | the corrected chain: a route with an allow-list dispatches only if the token's own account role is in it; no route iff nothing matches; refusals are 401 or 403 |
| Server.TokenGateKeepsUserRoleOnProfile | internal/routes/user_routes.go:13-23 | under the corrected chain, a token of role user reaches only GetProfile among the JWT routes |
| Server.TokenGateRefusesUserRole | internal/routes/user_routes.go:18 | under the corrected chain, DELETE /users/:id with a token of role user is 403, whatever X-User-ID says |
| Server.HeaderRoleOpensGroupRoute | internal/middleware/authorize.go:13-34 | any admitted request with a valid token and an X-User-ID naming an admin or moderator row is dispatched to DeleteGroup on DELETE /groups/:id, whatever the token's account role |
| Server.SampleGroupRequestOverridesRole | internal/middleware/authorize.go:13-34 | a concrete request: the token names account 1 of role user while X-User-ID names account 3 of role moderator |
| Server.DeleteGroupRouteResolves | internal/routes/group_routes.go:17 | DELETE /groups/:id resolves to the admin-or-moderator, JWT-guarded DeleteGroup route |
| Server.TokenGateRefusesUserRoleOnGroups | internal/routes/group_routes.go:17 | under the corrected chain, DELETE /groups/:id with a token of role user is 403, whatever X-User-ID says |
| ActivityLogging.LogAction | internal/services/activity_logger.go:10-24 | on success exactly one record (next key, user, action, now) is appended; on failure the error is returned and the log is unchanged |
| ActivityLogging.LogActionQuietly | internal/utils/logger.go:10-20 | one record is appended when the store succeeds; a failure is swallowed and leaves the log unchanged |
| Xss.EscapeString | internal/utils/xss.go:10 | escaping never shortens a string and leaves none of `<`, `>`, `"`, `'` in it |
| Xss.TrimLeftDropsLeadingSpace | internal/utils/xss.go:10 | the left trim is a suffix; everything it drops is white space; it does not start with white space |
| Xss.TrimRightDropsTrailingSpace | internal/utils/xss.go:10 | the right trim is a prefix; everything it drops is white space; it does not end with white space |
| Xss.EscapedAmpersandsAreEntities | internal/utils/xss.go:10 | every `&` in an escaped string begins one of the five entities |
| Xss.SanitizeHasNoMarkup | internal/utils/xss.go:10 | SanitizeInput's output has none of `<`, `>`, `"`, `'` |
| Xss.SanitizeAmpersandsAreEntities | internal/utils/xss.go:10 | every `&` in SanitizeInput's output begins one of the five entities |
| Xss.SanitizeIsTrimmed | internal/utils/xss.go:10 | SanitizeInput's output has no leading or trailing white space |
| Xss.EscapeKeepsPlainText | internal/utils/xss.go:10 | a string without special characters is not changed by escaping |
| Xss.SanitizeKeepsPlainText | internal/utils/xss.go:10 | a string with nothing to escape and nothing to trim is returned unchanged |
| Xss.TrimSpaceKeepsTrimmed | internal/utils/xss.go:10 | trimming a string with no surrounding white space changes nothing |
| Xss.SanitizeIsNotIdempotent | internal/utils/xss.go:10 | `&` sanitizes to `&amp;` and, sanitized again, to `&amp;amp;` |
| Dto.CreateUserInput.Sanitize | internal/dto/user.go:14-18 | Name, Email and Password are each replaced by SanitizeInput of their old value |
| Dto.UpdateUserInput.Sanitize | internal/dto/user.go:26-29 | only Name and Email change, each to SanitizeInput of its old value |
| Dto.GroupInput.Sanitize | internal/dto/group.go:10-12 | Name, the only field, becomes SanitizeInput of its old value |
| Dto.MinLengthPrecedesSanitize | internal/dto/user.go:11 | a password that passes min=6 can sanitize to a single character, because the length rule sees the raw value |
| AuthHandlers.Register | internal/handlers/auth.go:26-56 | an invalid body gives 400 with no insert; a hash failure gives 500; a failed insert gives 400; otherwise 201, with the raw fields, the hash and RoleID 3 stored; the outcome is one of these |
| AuthHandlers.Login | internal/handlers/auth.go:68-105 | an invalid body gives 400; an unknown email or a wrong password gives 401; a signing failure gives 500; 200 comes with a token signed over (user ID, now+72h); there is no ban check |
| AuthHandlers.UnknownEmailLooksLikeWrongPassword | internal/handlers/auth.go:77-87 | an unknown email and a wrong password produce the same reply |
| AuthHandlers.StoredAccountLogsIn | internal/handlers/auth.go:76-104 | a stored account with a matching password gets 200 and the token for its ID, banned or not |
| AuthHandlers.ShortPasswordRefusedBeforeLookup | internal/dto/auth.go:13 | a login password shorter than 6 gets 400 whatever the users table holds |
| UserHandlers.CreateUser | internal/handlers/user.go:26-70 | an invalid body gives 400; the input is sanitized; 201 iff the hash and the insert succeed; the new row holds the hash of the sanitized password and RoleID 3; logging happens only with an identity and never changes the status |
| UserHandlers.GetUsers | internal/handlers/user.go:82-114 | 401 without an identity; an unknown role filter gives 400; an empty filter lists every user; a known filter lists exactly the users with that role |
| UserHandlers.UpdateUser | internal/handlers/user.go:129-185 | 401, then 404 for a missing target, then 403 unless the caller is the target, an admin or a moderator, then, for a caller allowed to edit, 400 for an invalid body and otherwise 500 unless the update succeeds; on 200 only Name and Email change |
| UserHandlers.DeleteUser | internal/handlers/user.go:196-225 | 401, then 404 for a missing target; otherwise 200 whatever the delete returned, with the row gone iff the delete succeeded |
| UserHandlers.UpdateUserRole | internal/handlers/user.go:240-291 | an empty or unknown role name gives 400 with no change; success sets RoleID to that role's ID, and the user's role name is then the requested one |
| UserHandlers.SetBanned | internal/handlers/user.go:304-400 | 400 with no change when the flag already has the requested value; otherwise IsBanned is set to it and nothing else changes |
| UserHandlers.BanUser | internal/handlers/user.go:304-345 | banning an already banned user gives 400; otherwise IsBanned becomes true |
| UserHandlers.UnbanUser | internal/handlers/user.go:358-400 | unbanning a user who is not banned gives 400; otherwise IsBanned becomes false |
| UserHandlers.GetProfile | internal/handlers/user.go:413-432 | 401 without an identity; 200 with the caller's own stored row iff it can be loaded, else 500 |
| GroupHandlers.LoadMembers | internal/handlers/group.go:242 | the preloaded members are exactly the stored users whose IDs the group lists |
| GroupHandlers.FindMember | internal/handlers/group.go:256-262 | the linear search sets `found` iff some member's ID equals the user's ID |
| GroupHandlers.MemberSearchIsMembership | internal/handlers/group.go:242-262 | searching the preloaded members finds the user iff the join table holds the (group, user) row |
| GroupHandlers.IsMember | internal/handlers/group.go:242-262 | the handler's membership test answers iff the (group, user) row is in the join table |
| GroupHandlers.CreateGroups | internal/handlers/group.go:25-55 | an invalid body gives 400; the sanitized name is stored; a failed insert (for example a duplicate name) gives 500; 201 returns the new group |
| GroupHandlers.GetGroups | internal/handlers/group.go:65-77 | read-only; 500 on failure; otherwise every group, each with its members |
| GroupHandlers.UpdateGroup | internal/handlers/group.go:91-123 | a missing group gives 404 before the body is read; an invalid body gives 400; otherwise 200 even when the save fails, with only Name replaced by the sanitized input |
| GroupHandlers.DeleteGroup | internal/handlers/group.go:134-168 | 404 for a missing group; the memberships are cleared before the delete; a failure of either step gives 500; the outcome is 200, 404 or 500 |
| GroupHandlers.AddUserToGroup | internal/handlers/group.go:182-224 | 404 for a missing group or user; success makes the user a member without checking whether it already was; user ID 0 is not rejected by binding |
| GroupHandlers.RemoveUserFromGroup | internal/handlers/group.go:237-285 | 404 for a missing group or user; 400 with no change for a non-member; success removes only that (group, user) row |
| Activity.InsertByTimestamp | internal/handlers/activity.go:25 | inserting into a newest-first list keeps it newest first and adds exactly the one record |
| Activity.SortNewestFirst | internal/handlers/activity.go:25 | the result is newest first and a permutation of the log table |
| Activity.GetActivityLogs | internal/handlers/activity.go:21-33 | 500 on failure; otherwise 200 with every record of every actor, newest first, and the log table is only read |
| Activity.NoRecordIsFilteredOut | internal/handlers/activity.go:25 | any stored record, whatever its actor, is in the reply |
| Seed.SeedRoles | internal/seed/roles.go:10-32 | the loop over admin, moderator and user leaves the roles table exactly as the specification SeedFrom says, with the table constraints kept |
| Seed.SeedKeepsAndAdds | internal/seed/roles.go:18-31 | seeding keeps the roles constraints and rewrites no existing role; after success every seeded name exists |
| Seed.SeedOverSeededIsNoOp | internal/seed/roles.go:18-21 | when every name already exists, seeding writes nothing and fails only on a failed lookup |
| Seed.SecondSeedingChangesNothing | internal/seed/roles.go:18-31 | a second run after a successful one changes nothing |
| Seed.MissingRoleGetsItsDescription | internal/seed/roles.go:12-23 | a missing role is created under its name with its own description |
| Seed.SeedAdmin | internal/seed/admin.go:12-47 | a failed count gives an error; an existing admin email ends with success and no change; a hash or admin-role failure gives an error; a failed insert is fatal; otherwise one user "admin" is created |
| Seed.CreatedAdminIsAdmin | internal/seed/admin.go:23-41 | the created administrator has the "admin" role and the hash of "admin123", not the plaintext |
| Seed.ExistingEmailStopsSeeding | internal/seed/admin.go:13-20 | a user holding admin@example.com ends seeding with success and no change, whatever its role |
| Seed.SecondAdminSeedingChangesNothing | internal/seed/admin.go:13-20 | running it again after success has the same effect as running it once |

## Left out

- Cryptography is not modelled. bcrypt hashing and comparison, and JWT signing and parsing, are oracles passed as parameters. The same goes for the `binding:"email"` validator.
- Malformed JSON bodies are not modelled. A body is given as its decoded fields, and an undecodable body takes the same 400 path as a binding failure.
- Time is modelled as integer seconds. `time.Time` is not modelled.
- The JWT `userID` claim is modelled as a natural number. Its `float64` representation is not.
- The token's `role` claim is ignored, as the middleware itself ignores it.
- Logging through `utils.Log`, `fmt.Println` and `log.Println` is left out: it has no effect on outcomes.
- The activity action is modelled as a datatype, not as the formatted Russian sentence.
- `sync.Map` concurrency is not modelled. The rate limiter is sequential, so unsynchronised read-modify-write races are not covered.
- Jwt.Authenticate: the unreachable branch at internal/middleware/jwt.go:46-51 is not modelled. It re-tests an `ok` that is already true.
- Authorization.Authorize: `user.Role` is compared to a role name. In the source, that field is the unpreloaded Role struct, and the comparison does not compile as written. The model resolves the role name through RoleID.
- Authorization.Authorize: the model stores the (id, role name) identity in `currentUser`, the shape the JWT middleware writes, not the `models.User` row the source stores at internal/middleware/authorize.go:29 and :33. So the 500 path through Gin's Recovery, where a handler's `currentUserRaw.(dto.UserInfo)` assertion panics on that row, is not modelled: CreateUser (internal/handlers/user.go:61), UpdateUser (:136), DeleteUser (:203), UpdateUserRole (:247), BanUser (:311) and UnbanUser (:365). Other lines that do not compile as written are modelled by their evident meaning: internal/middleware/jwt.go:63-66 puts `user.Role`, a `*models.Role`, into a string field; internal/handlers/user.go:137-140 and its siblings at :204-207, :312-315 and :366-369 give the string `userInfo.Role` to the `*models.Role` field of a `models.User`; internal/handlers/user.go:273 assigns `&role` where the field's type differs.
- RoleGates.RequireRole: the `currentUser` is an (id, role-name) identity. The panics of the source's type assertions against `handlers.UserInfo` are not modelled.
- RequireRole and RequireAnyRole are modelled but are not wired into any route, as in the source.
- Gin's automatic trailing-slash redirect is not modelled.
- The `required` rule of `dto.UserGroupInput` is not modelled: no handler binds that type, and AddUserToGroup binds an anonymous struct without the rule (internal/handlers/group.go:184-186).
- Xss.TrimSpace: Unicode white space (U+0085, U+00A0 and the other non-ASCII spaces) is not trimmed; only the ASCII white space strings.TrimSpace removes is modelled.
- Routes.Resolve takes the first matching route in table order. Gin's static-over-parameter precedence is not modelled, since in these tables no path is matched by two routes of one method.
- Models.FindById: a non-numeric or signed key string finds nothing. GORM's raw-SQL use of such a string is not modelled.
- I/O failures of handler lookups take the not-found path. Separate faults are modelled only for the writes and listings whose failure the handlers report.
- Store.Database.CreateUser: a failed insert does not consume an auto-increment key.
- The `PasswordHash` field's exclusion from JSON (`json:"-"`) is not modelled, because replies are modelled as rows.
- `log.Fatalf` in SeedAdmin is the outcome `Fatal`. Process exit is not modelled.
- The soft-delete `DeletedAt` columns are not modelled. All deletes shown are hard deletes.
- Timestamps and the `CreatedAt` and `UpdatedAt` columns are not modelled.
- internal/services/logger.go is covered by ActivityLogging.LogAction. It has the same append and error return as internal/services/activity_logger.go, without the diagnostics.
- internal/handlers/user_input.go is not part of this model. The handlers do not use it.
- StatusMovedPermanently and the Swagger UI handler are modelled only as dispatch targets. The Swagger files themselves are not part of this model.

## Findings

| source | as written | input that shows it | evidently intended | confidence | as-written member | corrected member |
|---|---|---|---|---|---|---|
| internal/middleware/authorize.go:13-34 | the role allow-list is checked against the account named by the client-supplied X-User-ID header, and nothing ties that account to the one the JWT authenticated | DELETE /groups/1 with a valid token for account 1 (role user) and `X-User-ID: 3`, where account 3 is a moderator: DeleteGroup runs and deletes the group, logging under account 3 | the allow-list gates the caller the token authenticates | medium, not executed | Server.HeaderRoleOpensGroupRoute | Server.TokenGatedOutcome |

`Server.Serve` and `Server.Outcome` keep the chain as written, so that the handlers see the context the source gives them; the corrected gate is stated beside it as `Server.TokenGatedOutcome`, with `Server.TokenGateRefusesUserRoleOnGroups` refusing the input above and `Server.SampleGroupRequestOverridesRole` exhibiting it on concrete data. `Server.HeaderRoleOpensAdminRoute` shows the same gate opening DELETE /users/:id; there the source's DeleteUser would then fail its type assertion on the row Authorize stored, a path this model leaves out.

=== FILE: activity.dfy ===
/**
 * handlers.GetActivityLogs: every activity record, newest first, with no
 * filter by actor. It only reads the log table.
 */
module Activity {
  import opened Http
  import opened Models

  /** Order("timestamp desc"): no record is older than one after it. */
  predicate NewestFirst(s: seq<ActivityLog>) {
    forall i, j :: 0 <= i < j < |s| ==> s[i].timestamp >= s[j].timestamp
  }

  /** Places `x` before the first record older than it. */
  function InsertByTimestamp(x: ActivityLog, s: seq<ActivityLog>): (r: seq<ActivityLog>)
    requires NewestFirst(s)
    ensures NewestFirst(r)
    ensures multiset(r) == multiset(s) + multiset{x}
    ensures |r| == |s| + 1
    ensures r != [] && (r[0] == x || (s != [] && r[0] == s[0]))
  {
    if s == [] || x.timestamp >= s[0].timestamp then
      [x] + s
    else
      var rest := InsertByTimestamp(x, s[1..]);
      assert s == [s[0]] + s[1..];
      [s[0]] + rest
  }

  /** The records ordered newest first (ties in any order, as the database leaves them). */
  function SortNewestFirst(s: seq<ActivityLog>): (r: seq<ActivityLog>)
    ensures NewestFirst(r)
    ensures multiset(r) == multiset(s)
  {
    if s == [] then []
    else
      assert s == [s[0]] + s[1..];
      InsertByTimestamp(s[0], SortNewestFirst(s[1..]))
  }

  datatype LogsReply = LogsReply(status: int, logs: seq<ActivityLog>)

  function GetActivityLogs(logs: seq<ActivityLog>, fault: bool): (r: LogsReply)
    ensures fault ==> r == LogsReply(StatusInternalServerError, [])
    ensures !fault ==> r.status == StatusOK && NewestFirst(r.logs) && multiset(r.logs) == multiset(logs)
  {
    if fault then LogsReply(StatusInternalServerError, []) else LogsReply(StatusOK, SortNewestFirst(logs))
  }

  /** Every record of every actor is in the reply, each as often as it is stored. */
  lemma NoRecordIsFilteredOut(logs: seq<ActivityLog>, rec: ActivityLog)
    requires rec in logs
    ensures rec in GetActivityLogs(logs, false).logs
  {
    assert rec in multiset(logs);
  }
}

=== FILE: auth_handlers.dfy ===
/**
 * handlers.Register and handlers.Login. bcrypt and JWT signing are taken as
 * functions supplied by the caller: `Hasher` (GenerateFromPassword, None on
 * failure), `PasswordCheck` (CompareHashAndPassword succeeds) and `Signer`
 * (SignedString, None on failure).
 */
module AuthHandlers {
  import opened Wrappers
  import opened Http
  import opened Models
  import opened Store
  import opened Dto

  type Hasher = string -> Option<string>
  type PasswordCheck = (string, string) -> bool

  /** The claims Login signs: the user's id and an expiry in Unix seconds. */
  datatype Claims = Claims(userId: nat, exp: int)
  type Signer = Claims -> Option<string>

  /** Every self-registered account gets the role with primary key 3. */
  const DefaultRoleId: nat := 3
  const TokenLifetime: int := 72 * 3600

  /** Register: bind, hash, insert; no sanitizing and no token. */
  method Register(db: Database, input: RegisterInput, isEmail: EmailFormat, hasher: Hasher, fault: bool)
    returns (status: int)
    requires db.Valid()
    modifies db`users, db`nextUserId
    ensures db.Valid()
    ensures !RegisterBinds(input, isEmail) ==> status == StatusBadRequest && db.users == old(db.users)
    ensures RegisterBinds(input, isEmail) && hasher(input.password).None? ==>
              status == StatusInternalServerError && db.users == old(db.users)
    ensures RegisterBinds(input, isEmail) && hasher(input.password).Some? && status != StatusCreated ==>
              status == StatusBadRequest
    ensures status == StatusCreated <==>
              RegisterBinds(input, isEmail) && hasher(input.password).Some?
              && !fault && !EmailTaken(old(db.users), input.email) && DefaultRoleId in db.roles
    ensures status == StatusCreated ==>
              db.users == old(db.users)[old(db.nextUserId) :=
                User(old(db.nextUserId), input.name, input.email, hasher(input.password).value, DefaultRoleId, false)]
    ensures status != StatusCreated ==> db.users == old(db.users)
    ensures status in {StatusCreated, StatusBadRequest, StatusInternalServerError}
  {
    if !RegisterBinds(input, isEmail) {
      return StatusBadRequest;
    }
    var hashed := hasher(input.password);
    if hashed.None? {
      return StatusInternalServerError;
    }
    var id := db.CreateUser(input.name, input.email, hashed.value, DefaultRoleId, fault);
    if id.None? {
      return StatusBadRequest;
    }
    return StatusCreated;
  }

  datatype LoginReply = LoginReply(status: int, token: Option<string>)

  /** Login: a read-only chain of bind, lookup by email, password check and signing. */
  function Login(users: map<nat, User>, input: LoginInput, isEmail: EmailFormat,
                 matches: PasswordCheck, sign: Signer, now: int): (r: LoginReply)
    ensures r.token.Some? <==> r.status == StatusOK
    ensures !LoginBinds(input, isEmail) ==> r.status == StatusBadRequest
    ensures LoginBinds(input, isEmail) ==>
              (r.status == StatusUnauthorized <==>
                 FindUserByEmail(users, input.email).None?
                 || !matches(FindUserByEmail(users, input.email).value.passwordHash, input.password))
    ensures r.status == StatusInternalServerError <==>
              LoginBinds(input, isEmail) && FindUserByEmail(users, input.email).Some?
              && matches(FindUserByEmail(users, input.email).value.passwordHash, input.password)
              && sign(Claims(FindUserByEmail(users, input.email).value.id, now + TokenLifetime)).None?
    ensures r.status == StatusOK ==>
              var u := FindUserByEmail(users, input.email).value;
              LoginBinds(input, isEmail) && matches(u.passwordHash, input.password)
              && r.token == sign(Claims(u.id, now + TokenLifetime))
    ensures r.status in {StatusOK, StatusBadRequest, StatusUnauthorized, StatusInternalServerError}
  {
    if !LoginBinds(input, isEmail) then LoginReply(StatusBadRequest, None)
    else match FindUserByEmail(users, input.email)
      case None => LoginReply(StatusUnauthorized, None)
      case Some(u) =>
        if !matches(u.passwordHash, input.password) then LoginReply(StatusUnauthorized, None)
        else match sign(Claims(u.id, now + TokenLifetime))
          case None => LoginReply(StatusInternalServerError, None)
          case Some(token) => LoginReply(StatusOK, Some(token))
  }

  /** An unknown email and a wrong password get the same answer. */
  lemma UnknownEmailLooksLikeWrongPassword(users: map<nat, User>, a: LoginInput, b: LoginInput, isEmail: EmailFormat,
                                          matches: PasswordCheck, sign: Signer, now: int)
    requires LoginBinds(a, isEmail) && LoginBinds(b, isEmail)
    requires FindUserByEmail(users, a.email).None?
    requires FindUserByEmail(users, b.email).Some?
    requires !matches(FindUserByEmail(users, b.email).value.passwordHash, b.password)
    ensures Login(users, a, isEmail, matches, sign, now) == Login(users, b, isEmail, matches, sign, now)
  {
  }

  /**
   * A stored account logs in with the password its hash was made from, banned
   * or not: the token signs its id and an expiry 72 hours ahead.
   */
  lemma StoredAccountLogsIn(users: map<nat, User>, roles: map<nat, Role>, nextId: nat, id: nat, password: string,
                            isEmail: EmailFormat, matches: PasswordCheck, sign: Signer, now: int)
    requires UsersTable(users, roles, nextId) && id in users
    requires LoginBinds(LoginInput(users[id].email, password), isEmail)
    requires matches(users[id].passwordHash, password)
    requires sign(Claims(id, now + TokenLifetime)).Some?
    ensures Login(users, LoginInput(users[id].email, password), isEmail, matches, sign, now)
            == LoginReply(StatusOK, sign(Claims(id, now + TokenLifetime)))
  {
    FindUserByStoredEmail(users, roles, nextId, id);
  }

  /** A password under six characters is refused before the user table is consulted. */
  lemma ShortPasswordRefusedBeforeLookup(users1: map<nat, User>, users2: map<nat, User>, input: LoginInput,
                                         isEmail: EmailFormat, matches: PasswordCheck, sign: Signer, now: int)
    requires |input.password| < 6
    ensures Login(users1, input, isEmail, matches, sign, now) == LoginReply(StatusBadRequest, None)
    ensures Login(users1, input, isEmail, matches, sign, now) == Login(users2, input, isEmail, matches, sign, now)
  {
  }
}

=== FILE: authorize.dfy ===
/**
 * middleware.Authorize(allowedRoles...): the acting user is the row named by
 * the X-User-ID header; it is written to the context, and the request goes on
 * only when that user's role name is one of `allowedRoles`.
 */
module Authorization {
  import opened Wrappers
  import opened Http
  import opened Text
  import opened Models

  /** config.DB.First(&user, header): the row the header names, if any. */
  function HeaderUser(header: string, users: map<nat, User>): (r: Option<User>)
    ensures r.Some? ==> (header != "" && ParseId(header).Some? && ParseId(header).value in users
                         && r.value == users[ParseId(header).value])
    ensures r.None? ==> header == "" || ParseId(header).None? || ParseId(header).value !in users
  {
    if header == "" then None else FindById(users, header)
  }

  /** The outcome of Authorize: 401 for a missing or unknown user, otherwise allow-list membership or 403. */
  function AuthorizeDecision(header: string, users: map<nat, User>, roles: map<nat, Role>, allowedRoles: seq<string>): (g: Gate)
    ensures g == Next || g == Abort(StatusUnauthorized) || g == Abort(StatusForbidden)
    ensures g == Abort(StatusUnauthorized) <==> HeaderUser(header, users).None?
    ensures HeaderUser(header, users).Some? ==>
              (g == Next <==> RoleName(roles, HeaderUser(header, users).value) in allowedRoles)
  {
    match HeaderUser(header, users)
    case None => Abort(StatusUnauthorized)
    case Some(user) => if RoleName(roles, user) in allowedRoles then Next else Abort(StatusForbidden)
  }

  /** The middleware; it sets "userID" and "currentUser" before the role test, so they stay set on a 403. */
  method Authorize(ctx: Context, allowedRoles: seq<string>, header: string, users: map<nat, User>, roles: map<nat, Role>)
    returns (g: Gate)
    modifies ctx
    ensures g == AuthorizeDecision(header, users, roles, allowedRoles)
    ensures HeaderUser(header, users).None? ==> ctx.userId == old(ctx.userId) && ctx.currentUser == old(ctx.currentUser)
    ensures HeaderUser(header, users).Some? ==>
              var u := HeaderUser(header, users).value;
              ctx.userId == Some(u.id) && ctx.currentUser == Some(Identity(u.id, RoleName(roles, u)))
  {
    if header == "" {
      return Abort(StatusUnauthorized);
    }
    var found := FindById(users, header);
    if found.None? {
      return Abort(StatusUnauthorized);
    }
    var user := found.value;
    var identity := Identity(user.id, RoleName(roles, user));
    ctx.userId := Some(user.id);
    ctx.currentUser := Some(identity);
    var i := 0;
    while i < |allowedRoles|
      invariant 0 <= i <= |allowedRoles|
      invariant forall j :: 0 <= j < i ==> allowedRoles[j] != identity.role
    {
      if identity.role == allowedRoles[i] {
        ctx.currentUser := Some(identity);
        return Next;
      }
      i := i + 1;
    }
    return Abort(StatusForbidden);
  }

  /** With an empty allow-list every existing user is refused with 403. */
  lemma EmptyAllowListForbidsEveryone(header: string, users: map<nat, User>, roles: map<nat, Role>)
    requires HeaderUser(header, users).Some?
    ensures AuthorizeDecision(header, users, roles, []) == Abort(StatusForbidden)
  {
  }
}

=== FILE: dto.dfy ===
/**
 * The request bodies the handlers bind: their `binding` tags as predicates,
 * and the Sanitize methods that overwrite fields in place. The `email` format
 * rule of the validator is taken as a parameter (`EmailFormat`).
 */
module Dto {
  import opened Xss

  /** The validator's `email` rule. */
  type EmailFormat = string -> bool

  /** binding:"required,min=6": present and at least six characters. */
  predicate PasswordBinds(password: string) {
    password != "" && |password| >= 6
  }

  /** binding:"required,email" */
  predicate EmailBinds(email: string, isEmail: EmailFormat) {
    email != "" && isEmail(email)
  }

  class CreateUserInput {
    var name: string
    var email: string
    var password: string

    constructor (name: string, email: string, password: string)
      ensures this.name == name && this.email == email && this.password == password
    {
      this.name, this.email, this.password := name, email, password;
    }

    /** Name required; Email required and an email; Password required, min=6. */
    predicate Binds(isEmail: EmailFormat)
      reads this
    {
      name != "" && EmailBinds(email, isEmail) && PasswordBinds(password)
    }

    /** Each of the three fields replaced by SanitizeInput of its old value. */
    method Sanitize()
      modifies this
      ensures name == SanitizeInput(old(name))
      ensures email == SanitizeInput(old(email))
      ensures password == SanitizeInput(old(password))
    {
      var n, e, p := SanitizeInput(name), SanitizeInput(email), SanitizeInput(password);
      name, email, password := n, e, p;
    }
  }

  class UpdateUserInput {
    var name: string
    var email: string

    constructor (name: string, email: string)
      ensures this.name == name && this.email == email
    {
      this.name, this.email := name, email;
    }

    /** Name required; Email omitempty, and an email when present. */
    predicate Binds(isEmail: EmailFormat)
      reads this
    {
      name != "" && (email == "" || isEmail(email))
    }

    method Sanitize()
      modifies this
      ensures name == SanitizeInput(old(name))
      ensures email == SanitizeInput(old(email))
    {
      var n, e := SanitizeInput(name), SanitizeInput(email);
      name, email := n, e;
    }
  }

  /** UpdateUserRoleInput: RoleName required. */
  predicate RoleNameBinds(roleName: string) {
    roleName != ""
  }

  class GroupInput {
    var name: string

    constructor (name: string)
      ensures this.name == name
    {
      this.name := name;
    }

    /** Name required. */
    predicate Binds()
      reads this
    {
      name != ""
    }

    method Sanitize()
      modifies this
      ensures name == SanitizeInput(old(name))
    {
      name := SanitizeInput(name);
    }
  }

  /** RegisterInput: bound as is, never sanitized. */
  datatype RegisterInput = RegisterInput(name: string, email: string, password: string)

  predicate RegisterBinds(input: RegisterInput, isEmail: EmailFormat) {
    input.name != "" && EmailBinds(input.email, isEmail) && PasswordBinds(input.password)
  }

  /** LoginInput: bound as is, never sanitized. */
  datatype LoginInput = LoginInput(email: string, password: string)

  predicate LoginBinds(input: LoginInput, isEmail: EmailFormat) {
    EmailBinds(input.email, isEmail) && PasswordBinds(input.password)
  }

  /**
   * min=6 is checked on the raw password, before Sanitize: five blanks and one
   * plain character pass it, and sanitizing leaves a one-character password.
   */
  lemma MinLengthPrecedesSanitize(c: char)
    requires !IsSpecial(c) && !IsSpace(c)
    ensures PasswordBinds("     " + [c])
    ensures SanitizeInput("     " + [c]) == [c]
  {
    var s := "     " + [c];
    assert forall i :: 0 <= i < |s| ==> !IsSpecial(s[i]);
    EscapeKeepsPlainText(s);
    var l := TrimLeft(s);
    TrimLeftDropsLeadingSpace(s);
    assert !IsSpace(s[5]);
    assert |l| >= 1;
    assert l[0] == s[|s| - |l|];
    assert l == [c];
    assert TrimRight(l) == l;
  }
}

=== FILE: group_handlers.dfy ===
/**
 * The handlers of handlers/group.go. They read the context's "userID"
 * (`actor`, None when no middleware set it) only to attribute the activity
 * record; each database write has its own `...Fault` flag.
 */
module GroupHandlers {
  import opened Wrappers
  import opened Http
  import opened Models
  import opened Store
  import opened Dto
  import opened Xss
  import opened ActivityLogging

  /** Either one record by the actor, or none when there is no actor or the log write failed. */
  predicate LoggedIfActor(before: seq<ActivityLog>, after: seq<ActivityLog>, nextLogId: nat,
                          actor: Option<nat>, action: Action, now: int, logFault: bool) {
    after == if actor.None? || logFault then before else before + [ActivityLog(nextLogId, actor.value, action, now)]
  }

  /** Group.Users as Preload("Users") fills it: the user rows the join table lists for the group, in row order. */
  function LoadMembers(ids: seq<nat>, users: map<nat, User>): (members: seq<User>)
    ensures forall u :: u in members ==> exists id :: id in ids && id in users && users[id] == u
    ensures forall id :: id in ids && id in users ==> users[id] in members
  {
    if ids == [] then []
    else
      var rest := LoadMembers(ids[1..], users);
      assert forall id :: id in ids <==> id == ids[0] || id in ids[1..];
      if ids[0] in users then [users[ids[0]]] + rest else rest
  }

  /** Some loaded member has ID `userId`. */
  predicate HasMemberId(members: seq<User>, userId: nat) {
    exists i :: 0 <= i < |members| && members[i].id == userId
  }

  /** The search loop of RemoveUserFromGroup (a `found` flag and an early break). */
  method FindMember(members: seq<User>, userId: nat) returns (found: bool)
    ensures found <==> HasMemberId(members, userId)
  {
    found := false;
    var i := 0;
    while i < |members|
      invariant 0 <= i <= |members|
      invariant forall j :: 0 <= j < i ==> members[j].id != userId
    {
      if members[i].id == userId {
        found := true;
        break;
      }
      i := i + 1;
    }
  }

  /** With rows keyed by their IDs, a loaded member with ID `uid` is a row of `users` listed for the group. */
  lemma LoadedMemberIsListed(ids: seq<nat>, users: map<nat, User>, uid: nat)
    requires forall k :: k in users ==> users[k].id == k
    requires HasMemberId(LoadMembers(ids, users), uid)
    ensures uid in ids && uid in users
  {
    var members := LoadMembers(ids, users);
    var i :| 0 <= i < |members| && members[i].id == uid;
    assert members[i] in members;
    var id :| id in ids && id in users && users[id] == members[i];
  }

  /** The search over the loaded members answers the membership question of the join table. */
  lemma MemberSearchIsMembership(users: map<nat, User>, roles: map<nat, Role>, nextId: nat,
                                 rows: seq<Membership>, groups: map<nat, Group>, gid: nat, uid: nat)
    requires UsersTable(users, roles, nextId) && JoinTable(rows, groups, users)
    ensures HasMemberId(LoadMembers(MemberIds(rows, gid), users), uid) <==> Membership(gid, uid) in rows
  {
    var ids := MemberIds(rows, gid);
    var members := LoadMembers(ids, users);
    if Membership(gid, uid) in rows {
      assert uid in ids && uid in users;
      assert users[uid] in members;
      var k :| 0 <= k < |members| && members[k] == users[uid];
      assert members[k].id == uid;
    }
    if HasMemberId(members, uid) {
      LoadedMemberIsListed(ids, users, uid);
    }
  }

  /** Preload("Users") followed by the search loop: is the user listed for the group? */
  method IsMember(db: Database, groupId: nat, userId: nat) returns (found: bool)
    requires db.Valid()
    ensures found <==> Membership(groupId, userId) in db.groupUsers
  {
    var members := LoadMembers(MemberIds(db.groupUsers, groupId), db.users);
    found := FindMember(members, userId);
    MemberSearchIsMembership(db.users, db.roles, db.nextUserId, db.groupUsers, db.groups, groupId, userId);
  }

  /** CreateGroups: bind, sanitize, insert; any store failure (a taken name included) is a 500. */
  method CreateGroups(db: Database, actor: Option<nat>, input: GroupInput, now: int, createFault: bool, logFault: bool)
    returns (status: int, created: Option<Group>)
    requires db.Valid()
    modifies db`groups, db`nextGroupId, db`logs, db`nextLogId, input
    ensures db.Valid()
    ensures !old(input.Binds()) ==> status == StatusBadRequest
    ensures old(input.Binds()) && status != StatusCreated ==> status == StatusInternalServerError
    ensures old(input.Binds()) ==> input.name == SanitizeInput(old(input.name))
    ensures status == StatusCreated <==>
              old(input.Binds()) && !createFault && !GroupNameTakenByOther(old(db.groups), input.name, 0)
    ensures status == StatusCreated ==>
              created == Some(Group(old(db.nextGroupId), input.name))
              && db.groups == old(db.groups)[old(db.nextGroupId) := Group(old(db.nextGroupId), input.name)]
              && LoggedIfActor(old(db.logs), db.logs, old(db.nextLogId), actor, CreatedGroup(input.name), now, logFault)
    ensures status != StatusCreated ==> created.None? && db.groups == old(db.groups) && db.logs == old(db.logs)
    ensures status in {StatusCreated, StatusBadRequest, StatusInternalServerError}
  {
    if !input.Binds() {
      return StatusBadRequest, None;
    }
    input.Sanitize();
    var id := db.CreateGroup(input.name, createFault);
    if id.None? {
      return StatusInternalServerError, None;
    }
    if actor.Some? {
      var _ := LogAction(db, actor.value, CreatedGroup(input.name), now, logFault);
    }
    return StatusCreated, Some(Group(id.value, input.name));
  }

  /** GetGroups: every group with the IDs of its members. */
  method GetGroups(db: Database, fault: bool)
    returns (status: int, listed: map<nat, Group>, members: map<nat, seq<nat>>)
    requires db.Valid()
    ensures status == (if fault then StatusInternalServerError else StatusOK)
    ensures status == StatusOK ==> listed == db.groups && members.Keys == db.groups.Keys
    ensures status == StatusOK ==>
              forall gid, uid :: gid in members ==> (uid in members[gid] <==> Membership(gid, uid) in db.groupUsers)
  {
    if fault {
      return StatusInternalServerError, map[], map[];
    }
    members := map gid | gid in db.groups :: MemberIds(db.groupUsers, gid);
    return StatusOK, db.groups, members;
  }

  /** UpdateGroup: 404 before the body is read; the save's outcome is not checked and the reply is 200. */
  method UpdateGroup(db: Database, actor: Option<nat>, idParam: string, input: GroupInput,
                     now: int, saveFault: bool, logFault: bool)
    returns (status: int, reply: Option<Group>)
    requires db.Valid()
    modifies db`groups, db`logs, db`nextLogId, input
    ensures db.Valid()
    ensures FindById(old(db.groups), idParam).None? ==> status == StatusNotFound
    ensures FindById(old(db.groups), idParam).Some? && !old(input.Binds()) ==> status == StatusBadRequest
    ensures status == StatusOK <==> FindById(old(db.groups), idParam).Some? && old(input.Binds())
    ensures status == StatusOK ==>
              var g := FindById(old(db.groups), idParam).value;
              input.name == SanitizeInput(old(input.name))
              && reply == Some(g.(name := input.name))
              && db.groups == (if !saveFault && !GroupNameTakenByOther(old(db.groups), input.name, g.id)
                               then old(db.groups)[g.id := g.(name := input.name)] else old(db.groups))
              && LoggedIfActor(old(db.logs), db.logs, old(db.nextLogId), actor, RenamedGroup(g.name, input.name), now, logFault)
    ensures status != StatusOK ==> reply.None? && db.groups == old(db.groups) && db.logs == old(db.logs)
  {
    var found := FindById(db.groups, idParam);
    if found.None? {
      return StatusNotFound, None;
    }
    var group := found.value;
    if !input.Binds() {
      return StatusBadRequest, None;
    }
    input.Sanitize();
    var oldName := group.name;
    group := group.(name := input.name);
    assert group.id in db.groups;
    var _ := db.SaveGroup(group, saveFault);
    if actor.Some? {
      var _ := LogAction(db, actor.value, RenamedGroup(oldName, group.name), now, logFault);
    }
    return StatusOK, Some(group);
  }

  /** DeleteGroup: clear the group's memberships, then hard-delete it; a failure of either step is a 500. */
  method DeleteGroup(db: Database, actor: Option<nat>, idParam: string, now: int,
                     clearFault: bool, deleteFault: bool, logFault: bool)
    returns (status: int)
    requires db.Valid()
    modifies db`groups, db`groupUsers, db`logs, db`nextLogId
    ensures db.Valid()
    ensures FindById(old(db.groups), idParam).None? ==> status == StatusNotFound
    ensures status == StatusOK <==> FindById(old(db.groups), idParam).Some? && !clearFault && !deleteFault
    ensures FindById(old(db.groups), idParam).Some? && clearFault ==>
              status == StatusInternalServerError && db.groupUsers == old(db.groupUsers) && db.groups == old(db.groups)
    ensures FindById(old(db.groups), idParam).Some? && !clearFault ==>
              var g := FindById(old(db.groups), idParam).value;
              db.groupUsers == WithoutGroup(old(db.groupUsers), g.id)
              && db.groups == (if deleteFault then old(db.groups) else old(db.groups) - {g.id})
    ensures status == StatusOK ==>
              var g := FindById(old(db.groups), idParam).value;
              LoggedIfActor(old(db.logs), db.logs, old(db.nextLogId), actor, DeletedGroup(g.name), now, logFault)
    ensures status != StatusOK ==> db.logs == old(db.logs)
    ensures FindById(old(db.groups), idParam).None? ==> db.groups == old(db.groups) && db.groupUsers == old(db.groupUsers)
    ensures FindById(old(db.groups), idParam).Some? && status != StatusOK ==> status == StatusInternalServerError
    ensures status in {StatusOK, StatusNotFound, StatusInternalServerError}
  {
    var found := FindById(db.groups, idParam);
    if found.None? {
      return StatusNotFound;
    }
    var group := found.value;
    var cleared := db.ClearMembers(group.id, clearFault);
    if !cleared {
      return StatusInternalServerError;
    }
    var deleted := db.DeleteGroup(group.id, deleteFault);
    if !deleted {
      return StatusInternalServerError;
    }
    if actor.Some? {
      var _ := LogAction(db, actor.value, DeletedGroup(group.name), now, logFault);
    }
    return StatusOK;
  }

  /**
   * AddUserToGroup: the body's user_id carries no `required` rule here, so 0
   * gets through binding and is answered 404 by the lookup.
   */
  method AddUserToGroup(db: Database, actor: Option<nat>, groupParam: string, userId: nat,
                        now: int, appendFault: bool, logFault: bool)
    returns (status: int)
    requires db.Valid()
    modifies db`groupUsers, db`logs, db`nextLogId
    ensures db.Valid()
    ensures FindById(old(db.groups), groupParam).None? ==> status == StatusNotFound
    ensures FindById(old(db.groups), groupParam).Some? && userId !in db.users ==> status == StatusNotFound
    ensures status == StatusOK <==> FindById(old(db.groups), groupParam).Some? && userId in db.users && !appendFault
    ensures status == StatusOK ==>
              var g := FindById(old(db.groups), groupParam).value;
              Membership(g.id, userId) in db.groupUsers
              && (forall m :: m in db.groupUsers <==> m in old(db.groupUsers) || m == Membership(g.id, userId))
              && LoggedIfActor(old(db.logs), db.logs, old(db.nextLogId), actor,
                               AddedToGroup(db.users[userId].name, g.name), now, logFault)
    ensures status != StatusOK ==> db.groupUsers == old(db.groupUsers) && db.logs == old(db.logs)
    ensures status in {StatusOK, StatusNotFound, StatusInternalServerError}
  {
    var found := FindById(db.groups, groupParam);
    if found.None? {
      return StatusNotFound;
    }
    var group := found.value;
    if userId !in db.users {
      return StatusNotFound;
    }
    var user := db.users[userId];
    assert group.id in db.groups;
    var ok := db.AppendMember(group.id, userId, appendFault);
    if !ok {
      return StatusInternalServerError;
    }
    if actor.Some? {
      var _ := LogAction(db, actor.value, AddedToGroup(user.name, group.name), now, logFault);
    }
    return StatusOK;
  }

  /** RemoveUserFromGroup: 404s, then 400 for a non-member, then the one (group, user) row is deleted. */
  method RemoveUserFromGroup(db: Database, actor: Option<nat>, groupParam: string, userParam: string,
                             now: int, deleteFault: bool, logFault: bool)
    returns (status: int)
    requires db.Valid()
    modifies db`groupUsers, db`logs, db`nextLogId
    ensures db.Valid()
    ensures FindById(old(db.groups), groupParam).None? ==> status == StatusNotFound
    ensures (FindById(old(db.groups), groupParam).Some?
             && FindById(db.users, userParam).None?) ==> status == StatusNotFound
    ensures (FindById(old(db.groups), groupParam).Some? && FindById(db.users, userParam).Some?
             && Membership(FindById(old(db.groups), groupParam).value.id, FindById(db.users, userParam).value.id)
                !in old(db.groupUsers)) ==> status == StatusBadRequest
    ensures status == StatusOK <==>
              FindById(old(db.groups), groupParam).Some? && FindById(db.users, userParam).Some?
              && Membership(FindById(old(db.groups), groupParam).value.id, FindById(db.users, userParam).value.id)
                 in old(db.groupUsers)
              && !deleteFault
    ensures status == StatusOK ==>
              var g := FindById(old(db.groups), groupParam).value;
              var u := FindById(db.users, userParam).value;
              db.groupUsers == WithoutRow(old(db.groupUsers), Membership(g.id, u.id))
              && LoggedIfActor(old(db.logs), db.logs, old(db.nextLogId), actor, RemovedFromGroup(u.name, g.name), now, logFault)
    ensures status != StatusOK ==> db.groupUsers == old(db.groupUsers) && db.logs == old(db.logs)
    ensures status in {StatusOK, StatusNotFound, StatusBadRequest, StatusInternalServerError}
  {
    var foundGroup := FindById(db.groups, groupParam);
    if foundGroup.None? {
      return StatusNotFound;
    }
    var group := foundGroup.value;
    var foundUser := FindById(db.users, userParam);
    if foundUser.None? {
      return StatusNotFound;
    }
    var user := foundUser.value;
    var found := IsMember(db, group.id, user.id);
    if !found {
      return StatusBadRequest;
    }
    var ok := db.DeleteMember(group.id, user.id, deleteFault);
    if !ok {
      return StatusInternalServerError;
    }
    if actor.Some? {
      var _ := LogAction(db, actor.value, RemovedFromGroup(user.name, group.name), now, logFault);
    }
    return StatusOK;
  }
}

=== FILE: http.dfy ===
/** The request-level vocabulary shared by middleware and handlers: status codes, methods, the gin context. */
module Http {
  import opened Wrappers

  const StatusOK := 200
  const StatusCreated := 201
  const StatusMovedPermanently := 301
  const StatusBadRequest := 400
  const StatusUnauthorized := 401
  const StatusForbidden := 403
  const StatusNotFound := 404
  const StatusTooManyRequests := 429
  const StatusInternalServerError := 500

  datatype Method = GET | POST | PUT | PATCH | DELETE

  /** What a middleware does with the request: call c.Next(), or respond with a status and c.Abort(). */
  datatype Gate = Next | Abort(status: int)

  /** dto.UserInfo as the handlers read it: the user's ID and the name of the user's role. */
  datatype Identity = Identity(id: nat, role: string)

  /** The two keys middleware stores in the gin context: "userID" and "currentUser". */
  class Context {
    var userId: Option<nat>
    var currentUser: Option<Identity>

    constructor ()
      ensures userId == None && currentUser == None
    {
      userId := None;
      currentUser := None;
    }
  }
}

=== FILE: jwt.dfy ===
/**
 * middleware.JWTAuthMiddleware: the Authorization header must read
 * "Bearer <token>", the token must verify, and its userID claim must name a
 * stored user; the identity put in the context is rebuilt from that row.
 */
module Jwt {
  import opened Wrappers
  import opened Text
  import opened Http
  import opened Models

  const BearerPrefix := "Bearer "

  /**
   * jwt.Parse with the server secret, seen from outside: the userID claim of
   * a token whose signature and expiry check out, None for any other token.
   */
  type TokenVerifier = string -> Option<nat>

  datatype AuthResult = Authenticated(identity: Identity) | Unauthenticated

  /** The decision chain of lines 17-60 together with the identity it stores. */
  function Authenticate(header: string, verify: TokenVerifier, users: map<nat, User>, roles: map<nat, Role>): (r: AuthResult)
    ensures r.Authenticated? ==> HasPrefix(header, BearerPrefix)
    ensures r.Authenticated? ==>
              var claim := verify(TrimPrefix(header, BearerPrefix));
              claim.Some? && claim.value in users && r.identity.role == RoleName(roles, users[claim.value])
  {
    if header == "" || !HasPrefix(header, BearerPrefix) then Unauthenticated
    else
      match verify(TrimPrefix(header, BearerPrefix))
      case None => Unauthenticated
      case Some(uid) =>
        // lines 46-51 re-test the `ok` of line 37, which is already true here: that branch never answers
        if uid in users then Authenticated(Identity(users[uid].id, RoleName(roles, users[uid])))
        else Unauthenticated
  }

  /** The middleware itself: on success it stores "userID" and "currentUser" and calls the next handler. */
  method JWTAuthMiddleware(ctx: Context, header: string, verify: TokenVerifier, users: map<nat, User>, roles: map<nat, Role>)
    returns (g: Gate)
    modifies ctx
    ensures Authenticate(header, verify, users, roles).Unauthenticated? ==>
              g == Abort(StatusUnauthorized) && ctx.userId == old(ctx.userId) && ctx.currentUser == old(ctx.currentUser)
    ensures Authenticate(header, verify, users, roles).Authenticated? ==>
              var id := Authenticate(header, verify, users, roles).identity;
              g == Next && ctx.userId == Some(id.id) && ctx.currentUser == Some(id)
  {
    if header == "" || !HasPrefix(header, BearerPrefix) {
      return Abort(StatusUnauthorized);
    }
    var tokenStr := TrimPrefix(header, BearerPrefix);
    var claim := verify(tokenStr);
    if claim.None? {
      return Abort(StatusUnauthorized);
    }
    var userId := claim.value;
    if userId !in users {
      return Abort(StatusUnauthorized);
    }
    var user := users[userId];
    ctx.userId := Some(user.id);
    ctx.currentUser := Some(Identity(user.id, RoleName(roles, user)));
    return Next;
  }

  /** No "Bearer " prefix (the space included), or no header at all: 401. */
  lemma MissingBearerIsUnauthorized(header: string, verify: TokenVerifier, users: map<nat, User>, roles: map<nat, Role>)
    requires !HasPrefix(header, BearerPrefix)
    ensures Authenticate(header, verify, users, roles) == Unauthenticated
  {
  }

  /** The verifier is handed exactly the header with one leading "Bearer " removed. */
  lemma VerifierSeesToken(token: string, v1: TokenVerifier, v2: TokenVerifier, users: map<nat, User>, roles: map<nat, Role>)
    requires v1(token) == v2(token)
    ensures Authenticate(BearerPrefix + token, v1, users, roles) == Authenticate(BearerPrefix + token, v2, users, roles)
  {
    var header := BearerPrefix + token;
    assert header[..|BearerPrefix|] == BearerPrefix;
    assert TrimPrefix(header, BearerPrefix) == token by {
      assert header[|BearerPrefix|..] == token;
    }
  }

  /** A rejected token, or a claim with no user row behind it: 401. */
  lemma BadTokenOrUnknownUserIsUnauthorized(header: string, verify: TokenVerifier, users: map<nat, User>, roles: map<nat, Role>)
    requires var t := verify(TrimPrefix(header, BearerPrefix)); t.None? || t.value !in users
    ensures Authenticate(header, verify, users, roles) == Unauthenticated
  {
  }

  /**
   * A verified token for a stored user authenticates, with the role read from
   * the user's row, and whether the user is banned plays no part.
   */
  lemma StoredUserIsAuthenticated(token: string, verify: TokenVerifier, users: map<nat, User>, roles: map<nat, Role>,
                                  nextId: nat, uid: nat)
    requires UsersTable(users, roles, nextId)
    requires verify(token) == Some(uid) && uid in users
    ensures Authenticate(BearerPrefix + token, verify, users, roles) == Authenticated(Identity(uid, roles[users[uid].roleId].name))
    ensures Authenticate(BearerPrefix + token, verify, users[uid := users[uid].(isBanned := true)], roles) ==
            Authenticate(BearerPrefix + token, verify, users, roles)
  {
    var header := BearerPrefix + token;
    assert header[..|BearerPrefix|] == BearerPrefix;
    assert header[|BearerPrefix|..] == token;
  }
}

=== FILE: logging.dfy ===
/**
 * The activity log writers: services.LogAction (both copies in the services
 * package have this behaviour; they differ only in diagnostics) returns the
 * store's error, utils.LogAction swallows it. The record's timestamp is the
 * clock reading `now`.
 */
module ActivityLogging {
  import opened Models
  import opened Store

  /** services.LogAction: one record on success; the store's failure is returned (`failed`). */
  method LogAction(db: Database, userId: nat, action: Action, now: int, fault: bool) returns (failed: bool)
    requires db.Valid()
    modifies db`logs, db`nextLogId
    ensures db.Valid()
    ensures failed == fault
    ensures !failed ==> db.logs == old(db.logs) + [ActivityLog(old(db.nextLogId), userId, action, now)]
    ensures failed ==> db.logs == old(db.logs)
  {
    var ok := db.CreateLog(userId, action, now, fault);
    failed := !ok;
  }

  /** utils.LogAction: one record when the store accepts it; a failure is printed and dropped. */
  method LogActionQuietly(db: Database, userId: nat, action: Action, now: int, fault: bool)
    requires db.Valid()
    modifies db`logs, db`nextLogId
    ensures db.Valid()
    ensures db.logs == if fault then old(db.logs) else old(db.logs) + [ActivityLog(old(db.nextLogId), userId, action, now)]
  {
    var _ := db.CreateLog(userId, action, now, fault);
  }
}

=== FILE: models.dfy ===
/**
 * The rows of the four tables (users, roles, groups, activity_logs), the
 * group_users join table, and the constraints their column tags declare.
 * Tables are maps from primary key to row; the join table is a sequence of rows.
 */
module Models {
  import opened Wrappers
  import opened Text

  datatype User = User(id: nat, name: string, email: string, passwordHash: string, roleId: nat, isBanned: bool)

  datatype Role = Role(id: nat, name: string, description: string)

  datatype Group = Group(id: nat, name: string)

  /** One row of the group_users join table shared by User.Groups and Group.Users. */
  datatype Membership = Membership(groupId: nat, userId: nat)

  /** What an activity record says was done; the source renders it as a formatted Russian sentence. */
  datatype Action =
    | CreatedUser(userName: string)
    | UpdatedUser(userName: string)
    | DeletedUser(userName: string)
    | ChangedRole(userName: string, oldRole: string, newRole: string)
    | BannedUser(userName: string)
    | UnbannedUser(userName: string)
    | CreatedGroup(groupName: string)
    | RenamedGroup(oldName: string, newName: string)
    | DeletedGroup(groupName: string)
    | AddedToGroup(userName: string, groupName: string)
    | RemovedFromGroup(userName: string, groupName: string)

  datatype ActivityLog = ActivityLog(id: nat, userId: nat, action: Action, timestamp: int)

  /** Smallest key of a non-empty set: the row `First` returns, since it orders by primary key. */
  function FirstKey(keys: set<nat>): (k: nat)
    requires keys != {}
    ensures k in keys
    ensures forall j :: j in keys ==> k <= j
  {
    MinExists(keys);
    var k :| k in keys && forall j :: j in keys ==> k <= j;
    k
  }

  lemma {:induction false} MinExists(keys: set<nat>)
    requires keys != {}
    ensures exists k :: k in keys && forall j :: j in keys ==> k <= j
    decreases |keys|
  {
    var x :| x in keys;
    var rest := keys - {x};
    if rest == {} {
      forall j | j in keys ensures x <= j {
        assert j !in rest;
      }
      assert x in keys;
    } else {
      MinExists(rest);
      var m :| m in rest && forall j :: j in rest ==> m <= j;
      var k := if x < m then x else m;
      forall j | j in keys ensures k <= j {
        if j != x { assert j in rest; }
      }
      assert k in keys;
    }
  }

  // ---- table constraints ----

  /** users: primary key ID (auto-increment from 1), uniqueIndex on Email, RoleID a foreign key into roles. */
  predicate UsersTable(users: map<nat, User>, roles: map<nat, Role>, nextId: nat) {
    && (forall id :: id in users ==> users[id].id == id && 0 < id < nextId && users[id].roleId in roles)
    && (forall a, b :: a in users && b in users && users[a].email == users[b].email ==> a == b)
  }

  /** roles: primary key ID, unique Name. */
  predicate RolesTable(roles: map<nat, Role>, nextId: nat) {
    && (forall id :: id in roles ==> roles[id].id == id && 0 < id < nextId)
    && (forall a, b :: a in roles && b in roles && roles[a].name == roles[b].name ==> a == b)
  }

  /** groups: primary key ID, unique Name. */
  predicate GroupsTable(groups: map<nat, Group>, nextId: nat) {
    && (forall id :: id in groups ==> groups[id].id == id && 0 < id < nextId)
    && (forall a, b :: a in groups && b in groups && groups[a].name == groups[b].name ==> a == b)
  }

  /** group_users: composite primary key (no duplicate rows), foreign keys into groups and users. */
  predicate JoinTable(rows: seq<Membership>, groups: map<nat, Group>, users: map<nat, User>) {
    && NoDuplicateRows(rows)
    && (forall m :: m in rows ==> m.groupId in groups && m.userId in users)
  }

  // ---- lookups ----

  /** db.First(&row, param) with the key given as a string: the row whose key the numeral names. */
  function FindById<T>(table: map<nat, T>, param: string): (r: Option<T>)
    ensures r.Some? <==> ParseId(param).Some? && ParseId(param).value in table
    ensures r.Some? ==> r.value == table[ParseId(param).value]
  {
    match ParseId(param)
    case None => None
    case Some(id) => if id in table then Some(table[id]) else None
  }

  function FindUserByEmail(users: map<nat, User>, email: string): (r: Option<User>)
    ensures r.None? <==> forall id :: id in users ==> users[id].email != email
    ensures r.Some? ==> r.value.email == email && exists id :: id in users && users[id] == r.value
  {
    var ids := set id | id in users && users[id].email == email;
    if ids == {} then
      assert forall id :: id in users ==> id !in ids;
      None
    else Some(users[FirstKey(ids)])
  }

  function FindRoleByName(roles: map<nat, Role>, name: string): (r: Option<Role>)
    ensures r.None? <==> forall id :: id in roles ==> roles[id].name != name
    ensures r.Some? ==> r.value.name == name && exists id :: id in roles && roles[id] == r.value
  {
    var ids := set id | id in roles && roles[id].name == name;
    if ids == {} then
      assert forall id :: id in roles ==> id !in ids;
      None
    else Some(roles[FirstKey(ids)])
  }

  /** The name of the role a user row points at; "" is the zero Role an unresolved reference loads as. */
  function RoleName(roles: map<nat, Role>, u: User): string {
    if u.roleId in roles then roles[u.roleId].name else ""
  }

  /** Role.Users: the users whose RoleID is the role's ID. */
  function UsersOfRole(users: map<nat, User>, roleId: nat): (r: map<nat, User>)
    ensures forall id :: id in r <==> id in users && users[id].roleId == roleId
    ensures forall id :: id in r ==> r[id] == users[id]
  {
    map id | id in users && users[id].roleId == roleId :: users[id]
  }

  /** With unique emails, the lookup by a stored email finds exactly that row. */
  lemma FindUserByStoredEmail(users: map<nat, User>, roles: map<nat, Role>, nextId: nat, id: nat)
    requires UsersTable(users, roles, nextId) && id in users
    ensures FindUserByEmail(users, users[id].email) == Some(users[id])
  {
    var ids := set k | k in users && users[k].email == users[id].email;
    assert ids == {id};
  }

  /** With unique names, the lookup by a stored role name finds exactly that role. */
  lemma FindRoleByStoredName(roles: map<nat, Role>, nextId: nat, id: nat)
    requires RolesTable(roles, nextId) && id in roles
    ensures FindRoleByName(roles, roles[id].name) == Some(roles[id])
  {
    var ids := set k | k in roles && roles[k].name == roles[id].name;
    assert ids == {id};
  }

  /** Every user belongs to exactly one role's Users: the one its RoleID names. */
  lemma UserInExactlyOneRole(users: map<nat, User>, roles: map<nat, Role>, nextId: nat, uid: nat, rid: nat)
    requires UsersTable(users, roles, nextId) && uid in users && rid in roles
    ensures uid in UsersOfRole(users, rid) <==> rid == users[uid].roleId
  {
  }

  // ---- the join table seen from each side ----

  /** The user IDs listed for a group, in row order (what Preload("Users") loads). */
  function MemberIds(rows: seq<Membership>, groupId: nat): (ids: seq<nat>)
    ensures forall uid :: uid in ids <==> Membership(groupId, uid) in rows
  {
    if rows == [] then []
    else
      var rest := MemberIds(rows[1..], groupId);
      assert forall m :: m in rows <==> m == rows[0] || m in rows[1..];
      if rows[0].groupId == groupId then [rows[0].userId] + rest else rest
  }

  /** The group IDs listed for a user (what User.Groups loads). */
  function GroupIdsOf(rows: seq<Membership>, userId: nat): (ids: seq<nat>)
    ensures forall gid :: gid in ids <==> Membership(gid, userId) in rows
  {
    if rows == [] then []
    else
      var rest := GroupIdsOf(rows[1..], userId);
      assert forall m :: m in rows <==> m == rows[0] || m in rows[1..];
      if rows[0].userId == userId then [rows[0].groupId] + rest else rest
  }

  /** Group.Users and User.Groups are one relation: each side lists the other exactly when a row links them. */
  lemma MembershipIsSymmetric(rows: seq<Membership>, gid: nat, uid: nat)
    ensures uid in MemberIds(rows, gid) <==> gid in GroupIdsOf(rows, uid)
  {
  }

  predicate NoDuplicateRows(rows: seq<Membership>) {
    forall i, j :: 0 <= i < j < |rows| ==> rows[i] != rows[j]
  }

  lemma HeadNotInTail(rows: seq<Membership>)
    requires rows != [] && NoDuplicateRows(rows)
    ensures rows[0] !in rows[1..] && NoDuplicateRows(rows[1..])
  {
    forall k | 0 <= k < |rows| - 1 ensures rows[1..][k] != rows[0] {
      assert rows[1..][k] == rows[k + 1];
    }
  }

  /** The join table without the group's rows, in the same order (Association("Users").Clear()). */
  function WithoutGroup(rows: seq<Membership>, groupId: nat): (r: seq<Membership>)
    ensures forall m :: m in r <==> m in rows && m.groupId != groupId
    ensures NoDuplicateRows(rows) ==> NoDuplicateRows(r)
  {
    if rows == [] then []
    else
      var rest := WithoutGroup(rows[1..], groupId);
      assert forall m :: m in rows <==> m == rows[0] || m in rows[1..];
      if rows[0].groupId == groupId then rest
      else
        var r := [rows[0]] + rest;
        assert forall i :: 0 < i < |r| ==> r[i] == rest[i - 1];
        assert NoDuplicateRows(rows) ==> rows[0] !in rest by {
          if NoDuplicateRows(rows) { HeadNotInTail(rows); }
        }
        r
  }

  /** The join table without one (group, user) row, in the same order (Association("Users").Delete(&user)). */
  function WithoutRow(rows: seq<Membership>, row: Membership): (r: seq<Membership>)
    ensures forall m :: m in r <==> m in rows && m != row
    ensures NoDuplicateRows(rows) ==> NoDuplicateRows(r)
  {
    if rows == [] then []
    else
      var rest := WithoutRow(rows[1..], row);
      assert forall m :: m in rows <==> m == rows[0] || m in rows[1..];
      if rows[0] == row then rest
      else
        var r := [rows[0]] + rest;
        assert forall i :: 0 < i < |r| ==> r[i] == rest[i - 1];
        assert NoDuplicateRows(rows) ==> rows[0] !in rest by {
          if NoDuplicateRows(rows) { HeadNotInTail(rows); }
        }
        r
  }
}

=== FILE: rate_limiter.dfy ===
/**
 * middleware.RateLimiter: a fixed-window counter per client IP, kept in the
 * package-level `clients` map for the life of the process. The clock is an
 * integer number of seconds.
 */
module RateLimiter {
  import opened Wrappers
  import opened Http

  const LimitRequestsPerMinute: int := 60
  const Minute: int := 60

  /** clientData: requests counted in the current window and the instant the window ends. */
  datatype ClientData = ClientData(requestCount: int, resetTime: int)

  function Lookup(clients: map<string, ClientData>, ip: string): Option<ClientData> {
    if ip in clients then Some(clients[ip]) else None
  }

  /**
   * The entry after one request at `now`: created with count 0 on first sight,
   * restarted when `now` is strictly after its reset time, then incremented.
   */
  function Count(entry: Option<ClientData>, now: int): (c: ClientData)
    ensures entry.None? ==> c == ClientData(1, now + Minute)
    ensures entry.Some? && now <= entry.value.resetTime ==>
              c == entry.value.(requestCount := entry.value.requestCount + 1)
    ensures entry.Some? && now > entry.value.resetTime ==> c == ClientData(1, now + Minute)
  {
    var loaded := if entry.Some? then entry.value else ClientData(0, now + Minute);
    var current := if now > loaded.resetTime then ClientData(0, now + Minute) else loaded;
    current.(requestCount := current.requestCount + 1)
  }

  /** A request is let through when the count it brought the window to is within the limit. */
  predicate Admits(c: ClientData) {
    c.requestCount <= LimitRequestsPerMinute
  }

  /** The `clients` map with its LoadOrStore-then-update discipline. */
  class Limiter {
    var clients: map<string, ClientData>

    constructor ()
      ensures clients == map[]
    {
      clients := map[];
    }

    /** The handler RateLimiter() returns, applied to one request from `ip` at `now`. */
    method Handle(ip: string, now: int) returns (g: Gate)
      modifies this
      ensures clients == old(clients)[ip := Count(Lookup(old(clients), ip), now)]
      ensures g == if Admits(clients[ip]) then Next else Abort(StatusTooManyRequests)
    {
      // clients.LoadOrStore(ip, &clientData{0, now + minute})
      var client: ClientData;
      if ip in clients {
        client := clients[ip];
      } else {
        client := ClientData(0, now + Minute);
        clients := clients[ip := client];
      }
      if now > client.resetTime {
        client := ClientData(0, now + Minute);
      }
      client := client.(requestCount := client.requestCount + 1);
      clients := clients[ip := client];
      if client.requestCount > LimitRequestsPerMinute {
        return Abort(StatusTooManyRequests);
      }
      return Next;
    }
  }

  /** The requests of one client at the given instants, starting from `c`: the entry left behind. */
  function After(c: ClientData, times: seq<int>): ClientData
    decreases |times|
  {
    if times == [] then c else After(Count(Some(c), times[0]), times[1..])
  }

  /** The admit (true) / reject (false) decisions for those requests, in order. */
  function Decisions(c: ClientData, times: seq<int>): (d: seq<bool>)
    ensures |d| == |times|
    decreases |times|
  {
    if times == [] then []
    else
      var c' := Count(Some(c), times[0]);
      [Admits(c')] + Decisions(c', times[1..])
  }

  function Admitted(d: seq<bool>): nat {
    if d == [] then 0 else (if d[0] then 1 else 0) + Admitted(d[1..])
  }

  /**
   * Inside one window (no request later than its reset time) the i-th request
   * is admitted exactly when the count before the burst plus i + 1 is within
   * the limit, and the reset time never moves.
   */
  lemma {:induction false} WindowDecisions(c: ClientData, times: seq<int>)
    requires forall i :: 0 <= i < |times| ==> times[i] <= c.resetTime
    ensures forall i :: 0 <= i < |times| ==> (Decisions(c, times)[i] <==> c.requestCount + i + 1 <= LimitRequestsPerMinute)
    ensures After(c, times) == ClientData(c.requestCount + |times|, c.resetTime)
    decreases |times|
  {
    if times != [] {
      var c' := Count(Some(c), times[0]);
      assert c' == ClientData(c.requestCount + 1, c.resetTime);
      WindowDecisions(c', times[1..]);
      var d := Decisions(c, times);
      forall i | 0 <= i < |times|
        ensures d[i] <==> c.requestCount + i + 1 <= LimitRequestsPerMinute
      {
        if i > 0 {
          assert d[i] == Decisions(c', times[1..])[i - 1];
        }
      }
    }
  }

  /** Every request counts, admitted or not: within a window the count grows by one per request. */
  lemma {:induction false} AdmittedCount(c: ClientData, times: seq<int>)
    requires 0 <= c.requestCount
    requires forall i :: 0 <= i < |times| ==> times[i] <= c.resetTime
    ensures Admitted(Decisions(c, times)) ==
              if c.requestCount >= LimitRequestsPerMinute then 0
              else if |times| <= LimitRequestsPerMinute - c.requestCount then |times|
              else LimitRequestsPerMinute - c.requestCount
    decreases |times|
  {
    if times != [] {
      var c' := Count(Some(c), times[0]);
      assert Decisions(c, times) == [Admits(c')] + Decisions(c', times[1..]);
      AdmittedCount(c', times[1..]);
    }
  }

  /**
   * A fresh window (the entry created for an unseen client, or one just
   * restarted) admits exactly the first 60 requests that fall inside it:
   * n requests give min(n, 60) admissions and n - min(n, 60) rejections.
   */
  lemma SixtyPerWindow(now: int, times: seq<int>)
    requires forall i :: 0 <= i < |times| ==> now <= times[i] <= now + Minute
    ensures var d := Decisions(ClientData(0, now + Minute), times);
            && (forall i :: 0 <= i < |times| ==> (d[i] <==> i < LimitRequestsPerMinute))
            && Admitted(d) == if |times| <= LimitRequestsPerMinute then |times| else LimitRequestsPerMinute
  {
    WindowDecisions(ClientData(0, now + Minute), times);
    AdmittedCount(ClientData(0, now + Minute), times);
  }

  /** After the reset time has passed, the next request starts a new window and is admitted. */
  lemma ExpiredWindowRestarts(c: ClientData, now: int)
    requires now > c.resetTime
    ensures Count(Some(c), now) == ClientData(1, now + Minute)
    ensures Admits(Count(Some(c), now))
  {
  }

  /** The reset time moves only when the window has expired. */
  lemma ResetTimeMovesOnlyOnExpiry(c: ClientData, now: int)
    ensures Count(Some(c), now).resetTime != c.resetTime ==> now > c.resetTime
  {
  }
}

=== FILE: roles.dfy ===
/**
 * middleware.RequireRole and middleware.RequireAnyRole: gates on the
 * "currentUser" already in the context. Role names are compared exactly;
 * there is no hierarchy between roles.
 */
module RoleGates {
  import opened Wrappers
  import opened Http

  /** The search loop of RequireAnyRole (lines 40-45): true at the first entry equal to `role`. */
  function AnyRoleMatches(roles: seq<string>, role: string): (found: bool)
    ensures found <==> role in roles
  {
    if roles == [] then false
    else if roles[0] == role then true
    else
      assert forall r :: r in roles <==> r == roles[0] || r in roles[1..];
      AnyRoleMatches(roles[1..], role)
  }

  function RequireRole(currentUser: Option<Identity>, role: string): (g: Gate)
    ensures currentUser.None? ==> g == Abort(StatusUnauthorized)
    ensures currentUser.Some? ==> (g == Next <==> currentUser.value.role == role)
    ensures currentUser.Some? && g != Next ==> g == Abort(StatusForbidden)
  {
    match currentUser
    case None => Abort(StatusUnauthorized)
    case Some(user) => if user.role != role then Abort(StatusForbidden) else Next
  }

  function RequireAnyRole(currentUser: Option<Identity>, roles: seq<string>): (g: Gate)
    ensures currentUser.None? ==> g == Abort(StatusUnauthorized)
    ensures currentUser.Some? ==> (g == Next <==> currentUser.value.role in roles)
    ensures currentUser.Some? && g != Next ==> g == Abort(StatusForbidden)
  {
    match currentUser
    case None => Abort(StatusUnauthorized)
    case Some(user) => if AnyRoleMatches(roles, user.role) then Next else Abort(StatusForbidden)
  }

  /** RequireRole(r) and RequireAnyRole(r) decide alike for every context. */
  lemma RequireRoleIsAnyRoleOfOne(currentUser: Option<Identity>, role: string)
    ensures RequireRole(currentUser, role) == RequireAnyRole(currentUser, [role])
  {
  }

  /** No hierarchy: an admin does not pass a moderator-only gate. */
  lemma NoRoleHierarchy(id: nat)
    ensures RequireRole(Some(Identity(id, "admin")), "moderator") == Abort(StatusForbidden)
    ensures RequireAnyRole(Some(Identity(id, "moderator")), ["admin"]) == Abort(StatusForbidden)
  {
  }

  /** RequireAnyRole with no roles refuses every identified user. */
  lemma NoRolesForbidsEveryone(user: Identity)
    ensures RequireAnyRole(Some(user), []) == Abort(StatusForbidden)
  {
  }
}

=== FILE: routes.dfy ===
/**
 * The route tables of RegisterAuthRoutes, RegisterUserRoutes and
 * RegisterGroupRoutes, plus the two routes main adds (the Swagger UI and the
 * /docs redirect). A path is taken as its '/'-separated segments after the
 * leading slash: "/users/me" is ["users", "me"], "/users/" is ["users", ""].
 */
module Routes {
  import opened Wrappers
  import opened Http

  datatype Handler =
    | Register | Login
    | GetProfile | GetUsers | CreateUser | UpdateUser | DeleteUser | UpdateUserRole
    | GetActivityLogs | BanUser | UnbanUser
    | CreateGroups | GetGroups | UpdateGroup | DeleteGroup | AddUserToGroup | RemoveUserFromGroup
    | SwaggerUI | DocsRedirect

  predicate IsGroupHandler(h: Handler) {
    h in {CreateGroups, GetGroups, UpdateGroup, DeleteGroup, AddUserToGroup, RemoveUserFromGroup}
  }

  /** One segment of a route pattern: a literal, a `:name` parameter or a `*name` catch-all. */
  datatype Segment = Lit(text: string) | Param | CatchAll

  /**
   * A registered route: `jwt` says whether the group's JWTAuthMiddleware runs,
   * `allowed` is the Authorize allow-list when the route has one.
   */
  datatype Route = Route(verb: Method, pattern: seq<Segment>, jwt: bool, allowed: Option<seq<string>>, handler: Handler)

  /** Gin's tree match: literals equal, a parameter takes one non-empty segment, a catch-all takes the rest. */
  predicate Matches(pattern: seq<Segment>, path: seq<string>)
    decreases |pattern|
  {
    if pattern == [] then path == []
    else match pattern[0]
      case CatchAll => true
      case Lit(t) => path != [] && path[0] == t && Matches(pattern[1..], path[1..])
      case Param => path != [] && path[0] != "" && Matches(pattern[1..], path[1..])
  }

  const AdminOrModerator: seq<string> := ["admin", "moderator"]
  const AdminOnly: seq<string> := ["admin"]

  /** RegisterAuthRoutes: two public POST routes. */
  function AuthRoutes(): (rs: seq<Route>)
    ensures |rs| == 2
    ensures forall i :: 0 <= i < |rs| ==> rs[i].verb == POST && !rs[i].jwt && rs[i].allowed.None?
    ensures rs[0].pattern == [Lit("auth"), Lit("register")] && rs[0].handler == Register
    ensures rs[1].pattern == [Lit("auth"), Lit("login")] && rs[1].handler == Login
  {
    [ Route(POST, [Lit("auth"), Lit("register")], false, None, Register),
      Route(POST, [Lit("auth"), Lit("login")], false, None, Login) ]
  }

  /** RegisterUserRoutes: everything behind JWT; only /me has no Authorize gate. */
  function UserRoutes(): (rs: seq<Route>)
    ensures |rs| == 9
    ensures forall i :: 0 <= i < |rs| ==> rs[i].jwt && |rs[i].pattern| >= 2 && rs[i].pattern[0] == Lit("users")
    ensures forall i :: 0 <= i < |rs| ==> (rs[i].allowed.None? <==> rs[i].handler == GetProfile)
    ensures forall i :: 0 <= i < |rs| && rs[i].allowed.Some? ==>
              rs[i].allowed.value == (if rs[i].handler == GetUsers || rs[i].handler == UpdateUser then AdminOrModerator else AdminOnly)
  {
    [ Route(GET, [Lit("users"), Lit("me")], true, None, GetProfile),
      Route(GET, [Lit("users"), Lit("")], true, Some(AdminOrModerator), GetUsers),
      Route(POST, [Lit("users"), Lit("")], true, Some(AdminOnly), CreateUser),
      Route(PUT, [Lit("users"), Param], true, Some(AdminOrModerator), UpdateUser),
      Route(DELETE, [Lit("users"), Param], true, Some(AdminOnly), DeleteUser),
      Route(PATCH, [Lit("users"), Param, Lit("role")], true, Some(AdminOnly), UpdateUserRole),
      Route(GET, [Lit("users"), Lit("activity")], true, Some(AdminOnly), GetActivityLogs),
      Route(PATCH, [Lit("users"), Param, Lit("ban")], true, Some(AdminOnly), BanUser),
      Route(PATCH, [Lit("users"), Param, Lit("unban")], true, Some(AdminOnly), UnbanUser) ]
  }

  /** RegisterGroupRoutes: six routes, each behind JWT and Authorize("admin", "moderator"). */
  function GroupRoutes(): (rs: seq<Route>)
    ensures |rs| == 6
    ensures forall i :: 0 <= i < |rs| ==> rs[i].jwt && rs[i].allowed == Some(AdminOrModerator) && IsGroupHandler(rs[i].handler)
    ensures forall h :: IsGroupHandler(h) ==> exists i :: 0 <= i < |rs| && rs[i].handler == h
  {
    var rs := [ Route(POST, [Lit("groups"), Lit("")], true, Some(AdminOrModerator), CreateGroups),
                Route(GET, [Lit("groups"), Lit("")], true, Some(AdminOrModerator), GetGroups),
                Route(PUT, [Lit("groups"), Param], true, Some(AdminOrModerator), UpdateGroup),
                Route(DELETE, [Lit("groups"), Param], true, Some(AdminOrModerator), DeleteGroup),
                Route(POST, [Lit("groups"), Param, Lit("users")], true, Some(AdminOrModerator), AddUserToGroup),
                Route(DELETE, [Lit("groups"), Param, Lit("users"), Param], true, Some(AdminOrModerator), RemoveUserFromGroup) ];
    assert forall h :: IsGroupHandler(h) ==>
      h == rs[0].handler || h == rs[1].handler || h == rs[2].handler ||
      h == rs[3].handler || h == rs[4].handler || h == rs[5].handler;
    rs
  }

  /** The two routes main registers itself; neither has a gate. */
  function MainRoutes(): (rs: seq<Route>)
    ensures forall i :: 0 <= i < |rs| ==> rs[i].verb == GET && !rs[i].jwt && rs[i].allowed.None?
  {
    [ Route(GET, [Lit("swagger"), CatchAll], false, None, SwaggerUI),
      Route(GET, [Lit("docs")], false, None, DocsRedirect) ]
  }

  function AllRoutes(): seq<Route> {
    AuthRoutes() + UserRoutes() + GroupRoutes() + MainRoutes()
  }

  /** The route serving (method, path), if any. */
  function Resolve(verb: Method, path: seq<string>): (r: Option<Route>)
    ensures r.Some? ==> r.value in AllRoutes() && r.value.verb == verb && Matches(r.value.pattern, path)
    ensures r.None? ==> forall q :: q in AllRoutes() && q.verb == verb ==> !Matches(q.pattern, path)
  {
    FirstMatch(AllRoutes(), verb, path)
  }

  function FirstMatch(rs: seq<Route>, verb: Method, path: seq<string>): (r: Option<Route>)
    ensures r.Some? ==> r.value in rs && r.value.verb == verb && Matches(r.value.pattern, path)
    ensures r.None? ==> forall q :: q in rs && q.verb == verb ==> !Matches(q.pattern, path)
  {
    if rs == [] then None
    else if rs[0].verb == verb && Matches(rs[0].pattern, path) then Some(rs[0])
    else
      assert forall q :: q in rs ==> q == rs[0] || q in rs[1..];
      FirstMatch(rs[1..], verb, path)
  }

  /** Every route reaching a group handler is a group route, and so admits exactly admin and moderator. */
  lemma GroupHandlersAreAdminOrModerator(r: Route)
    requires r in AllRoutes() && IsGroupHandler(r.handler)
    ensures r.jwt && r.allowed == Some(AdminOrModerator)
  {
    assert r in AuthRoutes() || r in UserRoutes() || r in GroupRoutes() || r in MainRoutes();
  }

  /** Every /users route runs JWT; every one but /me has an allow-list without "user". */
  lemma UsersRoleOnlyReachesProfile(r: Route)
    requires r in AllRoutes() && r.jwt && r.handler != GetProfile
    ensures r.allowed.Some? && "user" !in r.allowed.value
  {
    assert r in AuthRoutes() || r in UserRoutes() || r in GroupRoutes() || r in MainRoutes();
  }

  /** The /auth routes are public and are the only routes with a /auth prefix. */
  lemma AuthRoutesArePublic(r: Route)
    requires r in AllRoutes() && r.pattern != [] && r.pattern[0] == Lit("auth")
    ensures r in AuthRoutes() && !r.jwt && r.allowed.None?
  {
    assert r in AuthRoutes() || r in UserRoutes() || r in GroupRoutes() || r in MainRoutes();
  }
}

=== FILE: seed.dfy ===
/**
 * Start-up seeding: the three default roles, then the default administrator
 * account. Lookup and insert failures of the database are parameters.
 */
module Seed {
  import opened Wrappers
  import opened Models
  import opened Store
  import opened AuthHandlers

  // ---- roles ----

  /** The roles seeded on start, as literals with no ID yet. */
  const DefaultRoles: seq<Role> := [
    Role(0, "admin", "Администратор"),
    Role(0, "moderator", "Модератор"),
    Role(0, "user", "Пользователь")
  ]

  datatype RolesState = RolesState(ok: bool, roles: map<nat, Role>, nextId: nat)

  /**
   * The roles table after seeding `todo` in order: a role whose name is taken
   * is skipped; a failed lookup or a failed insert stops with an error.
   */
  function SeedFrom(roles: map<nat, Role>, nextId: nat, todo: seq<Role>, lookupFaults: seq<bool>, createFaults: seq<bool>): RolesState
    requires |lookupFaults| == |todo| == |createFaults|
    decreases |todo|
  {
    if todo == [] then RolesState(true, roles, nextId)
    else if lookupFaults[0] then RolesState(false, roles, nextId)
    else if RoleNameTaken(roles, todo[0].name) then
      SeedFrom(roles, nextId, todo[1..], lookupFaults[1..], createFaults[1..])
    else if createFaults[0] then RolesState(false, roles, nextId)
    else
      SeedFrom(roles[nextId := Role(nextId, todo[0].name, todo[0].description)], nextId + 1,
               todo[1..], lookupFaults[1..], createFaults[1..])
  }

  method SeedRoles(db: Database, lookupFaults: seq<bool>, createFaults: seq<bool>) returns (ok: bool)
    requires db.Valid() && |lookupFaults| == |DefaultRoles| == |createFaults|
    modifies db`roles, db`nextRoleId
    ensures db.Valid()
    ensures var s := SeedFrom(old(db.roles), old(db.nextRoleId), DefaultRoles, lookupFaults, createFaults);
            ok == s.ok && db.roles == s.roles && db.nextRoleId == s.nextId
  {
    var i := 0;
    while i < |DefaultRoles|
      invariant 0 <= i <= |DefaultRoles|
      invariant db.Valid()
      invariant SeedFrom(db.roles, db.nextRoleId, DefaultRoles[i..], lookupFaults[i..], createFaults[i..])
             == SeedFrom(old(db.roles), old(db.nextRoleId), DefaultRoles, lookupFaults, createFaults)
    {
      var role := DefaultRoles[i];
      assert DefaultRoles[i..][0] == role && DefaultRoles[i..][1..] == DefaultRoles[i + 1..];
      assert lookupFaults[i..][0] == lookupFaults[i] && lookupFaults[i..][1..] == lookupFaults[i + 1..];
      assert createFaults[i..][0] == createFaults[i] && createFaults[i..][1..] == createFaults[i + 1..];
      if lookupFaults[i] {
        return false;
      }
      var existing := FindRoleByName(db.roles, role.name);
      if existing.None? {
        var created := db.CreateRole(role.name, role.description, createFaults[i]);
        if !created {
          return false;
        }
      }
      i := i + 1;
    }
    ok := true;
  }

  /** An insert under a fresh key and a free name keeps the roles table's constraints. */
  lemma AddRoleKeepsTable(roles: map<nat, Role>, nextId: nat, name: string, description: string)
    requires 0 < nextId && RolesTable(roles, nextId) && !RoleNameTaken(roles, name)
    ensures RolesTable(roles[nextId := Role(nextId, name, description)], nextId + 1)
  {
    var r := roles[nextId := Role(nextId, name, description)];
    forall a, b | a in r && b in r && r[a].name == r[b].name
      ensures a == b
    {
      if a != nextId && b != nextId {
        assert roles[a].name == roles[b].name;
      } else if a != nextId || b != nextId {
        assert RoleNameTaken(roles, name);
      }
    }
  }

  /** Rows already present keep their ID, name and description; the key counter never falls back. */
  predicate Extends(before: map<nat, Role>, after: map<nat, Role>) {
    forall id :: id in before ==> id in after && after[id] == before[id]
  }

  /** Seeding keeps the table's constraints, never rewrites an existing role, and after success every seeded name exists. */
  lemma {:induction false} SeedKeepsAndAdds(roles: map<nat, Role>, nextId: nat, todo: seq<Role>, lookupFaults: seq<bool>, createFaults: seq<bool>)
    requires |lookupFaults| == |todo| == |createFaults|
    requires 0 < nextId && RolesTable(roles, nextId)
    ensures var s := SeedFrom(roles, nextId, todo, lookupFaults, createFaults);
            && RolesTable(s.roles, s.nextId)
            && Extends(roles, s.roles)
            && nextId <= s.nextId
            && (s.ok ==> forall i :: 0 <= i < |todo| ==> RoleNameTaken(s.roles, todo[i].name))
    decreases |todo|
  {
    if todo == [] || lookupFaults[0] {
    } else if RoleNameTaken(roles, todo[0].name) {
      SeedKeepsAndAdds(roles, nextId, todo[1..], lookupFaults[1..], createFaults[1..]);
      var s := SeedFrom(roles, nextId, todo, lookupFaults, createFaults);
      var id :| id in roles && roles[id].name == todo[0].name;
      assert id in s.roles && s.roles[id].name == todo[0].name;
      assert forall i :: 1 <= i < |todo| ==> todo[i] == todo[1..][i - 1];
    } else if createFaults[0] {
    } else {
      var next := roles[nextId := Role(nextId, todo[0].name, todo[0].description)];
      AddRoleKeepsTable(roles, nextId, todo[0].name, todo[0].description);
      SeedKeepsAndAdds(next, nextId + 1, todo[1..], lookupFaults[1..], createFaults[1..]);
      var s := SeedFrom(roles, nextId, todo, lookupFaults, createFaults);
      assert nextId in s.roles && s.roles[nextId].name == todo[0].name;
      assert forall i :: 1 <= i < |todo| ==> todo[i] == todo[1..][i - 1];
    }
  }

  /** When every seeded name is already taken, seeding writes nothing and fails only on a failed lookup. */
  lemma {:induction false} SeedOverSeededIsNoOp(roles: map<nat, Role>, nextId: nat, todo: seq<Role>, lookupFaults: seq<bool>, createFaults: seq<bool>)
    requires |lookupFaults| == |todo| == |createFaults|
    requires forall i :: 0 <= i < |todo| ==> RoleNameTaken(roles, todo[i].name)
    ensures var s := SeedFrom(roles, nextId, todo, lookupFaults, createFaults);
            && s.roles == roles && s.nextId == nextId
            && (s.ok <==> forall i :: 0 <= i < |todo| ==> !lookupFaults[i])
    decreases |todo|
  {
    if todo != [] {
      assert RoleNameTaken(roles, todo[0].name);
      assert forall i :: 1 <= i < |todo| ==> todo[i] == todo[1..][i - 1] && lookupFaults[i] == lookupFaults[1..][i - 1];
      SeedOverSeededIsNoOp(roles, nextId, todo[1..], lookupFaults[1..], createFaults[1..]);
    }
  }

  /** A second start after a successful seeding changes nothing, whatever its inserts would do. */
  lemma SecondSeedingChangesNothing(roles: map<nat, Role>, nextId: nat, lf1: seq<bool>, cf1: seq<bool>, lf2: seq<bool>, cf2: seq<bool>)
    requires 0 < nextId && RolesTable(roles, nextId)
    requires |lf1| == |cf1| == |lf2| == |cf2| == |DefaultRoles|
    requires SeedFrom(roles, nextId, DefaultRoles, lf1, cf1).ok
    ensures var s1 := SeedFrom(roles, nextId, DefaultRoles, lf1, cf1);
            var s2 := SeedFrom(s1.roles, s1.nextId, DefaultRoles, lf2, cf2);
            s2.roles == s1.roles && s2.nextId == s1.nextId
  {
    var s1 := SeedFrom(roles, nextId, DefaultRoles, lf1, cf1);
    SeedKeepsAndAdds(roles, nextId, DefaultRoles, lf1, cf1);
    SeedOverSeededIsNoOp(s1.roles, s1.nextId, DefaultRoles, lf2, cf2);
  }

  /** A seeded name that was missing is created with its own description. */
  lemma {:induction false} MissingRoleGetsItsDescription(roles: map<nat, Role>, nextId: nat, todo: seq<Role>, lookupFaults: seq<bool>, createFaults: seq<bool>, k: nat)
    requires |lookupFaults| == |todo| == |createFaults|
    requires 0 < nextId && RolesTable(roles, nextId)
    requires forall i, j :: 0 <= i < j < |todo| ==> todo[i].name != todo[j].name
    requires k < |todo| && !RoleNameTaken(roles, todo[k].name)
    requires SeedFrom(roles, nextId, todo, lookupFaults, createFaults).ok
    ensures var s := SeedFrom(roles, nextId, todo, lookupFaults, createFaults);
            FindRoleByName(s.roles, todo[k].name).Some?
            && FindRoleByName(s.roles, todo[k].name).value.description == todo[k].description
    decreases |todo|
  {
    var s := SeedFrom(roles, nextId, todo, lookupFaults, createFaults);
    SeedKeepsAndAdds(roles, nextId, todo, lookupFaults, createFaults);
    if k == 0 {
      var next := roles[nextId := Role(nextId, todo[0].name, todo[0].description)];
      AddRoleKeepsTable(roles, nextId, todo[0].name, todo[0].description);
      SeedKeepsAndAdds(next, nextId + 1, todo[1..], lookupFaults[1..], createFaults[1..]);
      assert s.roles[nextId] == Role(nextId, todo[0].name, todo[0].description);
      FindRoleByStoredName(s.roles, s.nextId, nextId);
    } else {
      assert todo[k] == todo[1..][k - 1];
      assert forall i, j :: 0 <= i < j < |todo[1..]| ==> todo[1..][i].name != todo[1..][j].name by {
        forall i, j | 0 <= i < j < |todo[1..]| ensures todo[1..][i].name != todo[1..][j].name {
          assert todo[1..][i] == todo[i + 1] && todo[1..][j] == todo[j + 1];
        }
      }
      if RoleNameTaken(roles, todo[0].name) {
        MissingRoleGetsItsDescription(roles, nextId, todo[1..], lookupFaults[1..], createFaults[1..], k - 1);
      } else {
        var next := roles[nextId := Role(nextId, todo[0].name, todo[0].description)];
        AddRoleKeepsTable(roles, nextId, todo[0].name, todo[0].description);
        assert !RoleNameTaken(next, todo[k].name) by {
          assert todo[0].name != todo[k].name;
        }
        MissingRoleGetsItsDescription(next, nextId + 1, todo[1..], lookupFaults[1..], createFaults[1..], k - 1);
      }
    }
  }

  // ---- administrator ----

  const AdminName := "admin"
  const AdminEmail := "admin@example.com"
  const AdminPassword := "admin123"

  /** How SeedAdmin ends: nil, an error returned to main, or log.Fatalf. */
  datatype SeedOutcome = Seeded | Failed | Fatal

  datatype AdminState = AdminState(outcome: SeedOutcome, users: map<nat, User>, nextId: nat)

  /** The users table after SeedAdmin. */
  function AdminSeed(users: map<nat, User>, roles: map<nat, Role>, nextId: nat, countFault: bool,
                     hasher: Hasher, roleFault: bool, createFault: bool): AdminState
  {
    if countFault then AdminState(Failed, users, nextId)
    else if EmailTaken(users, AdminEmail) then AdminState(Seeded, users, nextId)
    else if hasher(AdminPassword).None? then AdminState(Failed, users, nextId)
    else if roleFault || FindRoleByName(roles, AdminName).None? then AdminState(Failed, users, nextId)
    else if createFault then AdminState(Fatal, users, nextId)
    else
      var admin := User(nextId, AdminName, AdminEmail, hasher(AdminPassword).value, FindRoleByName(roles, AdminName).value.id, false);
      AdminState(Seeded, users[nextId := admin], nextId + 1)
  }

  method SeedAdmin(db: Database, countFault: bool, hasher: Hasher, roleFault: bool, createFault: bool) returns (outcome: SeedOutcome)
    requires db.Valid()
    modifies db`users, db`nextUserId
    ensures db.Valid()
    ensures var s := AdminSeed(old(db.users), db.roles, old(db.nextUserId), countFault, hasher, roleFault, createFault);
            outcome == s.outcome && db.users == s.users && db.nextUserId == s.nextId
  {
    if countFault {
      return Failed;
    }
    if EmailTaken(db.users, AdminEmail) {
      return Seeded;
    }
    var hashed := hasher(AdminPassword);
    if hashed.None? {
      return Failed;
    }
    if roleFault {
      return Failed;
    }
    var role := FindRoleByName(db.roles, AdminName);
    if role.None? {
      return Failed;
    }
    FoundRoleIsStored(db.roles, db.nextRoleId, AdminName);
    var id := db.CreateUser(AdminName, AdminEmail, hashed.value, role.value.id, createFault);
    if id.None? {
      return Fatal;
    }
    outcome := Seeded;
  }

  /** The role First finds by name is stored under its own ID. */
  lemma FoundRoleIsStored(roles: map<nat, Role>, nextId: nat, name: string)
    requires RolesTable(roles, nextId) && FindRoleByName(roles, name).Some?
    ensures FindRoleByName(roles, name).value.id in roles
    ensures roles[FindRoleByName(roles, name).value.id] == FindRoleByName(roles, name).value
  {
  }

  /** A seeded administrator holds the "admin" role and the hash of the default password. */
  lemma CreatedAdminIsAdmin(users: map<nat, User>, roles: map<nat, Role>, nextId: nat, roleNextId: nat, countFault: bool,
                            hasher: Hasher, roleFault: bool, createFault: bool)
    requires 0 < nextId && UsersTable(users, roles, nextId) && RolesTable(roles, roleNextId)
    requires !EmailTaken(users, AdminEmail)
    requires AdminSeed(users, roles, nextId, countFault, hasher, roleFault, createFault).outcome == Seeded
    ensures var s := AdminSeed(users, roles, nextId, countFault, hasher, roleFault, createFault);
            && FindUserByEmail(s.users, AdminEmail).Some?
            && RoleName(roles, FindUserByEmail(s.users, AdminEmail).value) == AdminName
            && Some(FindUserByEmail(s.users, AdminEmail).value.passwordHash) == hasher(AdminPassword)
  {
    var s := AdminSeed(users, roles, nextId, countFault, hasher, roleFault, createFault);
    FoundRoleIsStored(roles, roleNextId, AdminName);
    var role := FindRoleByName(roles, AdminName).value;
    var admin := User(nextId, AdminName, AdminEmail, hasher(AdminPassword).value, role.id, false);
    assert s.users == users[nextId := admin] && s.nextId == nextId + 1;
    assert UsersTable(s.users, roles, s.nextId) by {
      forall a, b | a in s.users && b in s.users && s.users[a].email == s.users[b].email
        ensures a == b
      {
        if a != nextId && b != nextId {
          assert users[a].email == users[b].email;
        } else if a != nextId || b != nextId {
          assert EmailTaken(users, AdminEmail);
        }
      }
    }
    FindUserByStoredEmail(s.users, roles, s.nextId, nextId);
  }

  /**
   * An account already holding the administrator's email ends seeding with
   * success and is left as it is, whatever its role and password.
   */
  lemma ExistingEmailStopsSeeding(users: map<nat, User>, roles: map<nat, Role>, nextId: nat,
                                  hasher: Hasher, roleFault: bool, createFault: bool, id: nat)
    requires id in users && users[id].email == AdminEmail
    ensures AdminSeed(users, roles, nextId, false, hasher, roleFault, createFault) == AdminState(Seeded, users, nextId)
  {
  }

  /** A second start after a successful seeding leaves the users table as it is. */
  lemma SecondAdminSeedingChangesNothing(users: map<nat, User>, roles: map<nat, Role>, nextId: nat,
                                         hasher: Hasher, roleFault: bool, createFault: bool,
                                         hasher2: Hasher, roleFault2: bool, createFault2: bool)
    requires AdminSeed(users, roles, nextId, false, hasher, roleFault, createFault).outcome == Seeded
    ensures var s1 := AdminSeed(users, roles, nextId, false, hasher, roleFault, createFault);
            AdminSeed(s1.users, roles, s1.nextId, false, hasher2, roleFault2, createFault2) == s1
  {
    var s1 := AdminSeed(users, roles, nextId, false, hasher, roleFault, createFault);
    if !EmailTaken(users, AdminEmail) {
      assert s1.users[nextId].email == AdminEmail;
    }
  }
}

=== FILE: server.dfy ===
/**
 * The request pipeline main assembles: a global middleware that runs the rate
 * limiter unless the path starts with "/swagger", then the route's own chain
 * (JWTAuthMiddleware, then Authorize, then the handler), and the /docs
 * redirect.
 */
module Server {
  import opened Wrappers
  import opened Http
  import opened Text
  import opened Models
  import RL = RateLimiter
  import Jwt
  import Authorization
  import RoleGates
  import opened Routes

  const SwaggerPrefix := "/swagger"
  const DocsLocation := "/swagger/index.html"

  /** A request as the pipeline sees it; `path` holds the segments after the leading '/'. */
  datatype Request = Request(verb: Method, path: seq<string>, clientIp: string, authorization: string, xUserId: string)

  datatype Reply =
    | Rejected(status: int)
    | Redirected(status: int, location: string)
    | Dispatched(handler: Handler)
    | NoRoute

  /** The URL path the segments spell: "/" before every segment. */
  function RawPath(path: seq<string>): string
  {
    if path == [] then "" else "/" + path[0] + RawPath(path[1..])
  }

  /** The test of the global middleware: such paths skip the rate limiter. */
  predicate BypassesRateLimiter(path: seq<string>) {
    HasPrefix(RawPath(path), SwaggerPrefix)
  }

  /** A rebuilt path is empty or starts with '/'. */
  lemma RawPathStartsWithSlash(path: seq<string>)
    ensures RawPath(path) == [] <==> path == []
    ensures path != [] ==> RawPath(path)[0] == '/'
  {
  }

  /**
   * The prefix test on the whole URL path comes down to the first segment:
   * it bypasses the limiter exactly when that segment starts with "swagger"
   * ("/swagger", "/swagger/index.html", but also "/swaggerx").
   */
  lemma BypassIsFirstSegmentPrefix(path: seq<string>)
    ensures BypassesRateLimiter(path) <==> path != [] && HasPrefix(path[0], "swagger")
  {
    if path != [] {
      var w := "swagger";
      var rest := RawPath(path[1..]);
      var s := path[0] + rest;
      RawPathStartsWithSlash(path[1..]);
      assert RawPath(path) == "/" + s;
      assert HasPrefix(RawPath(path), SwaggerPrefix) <==> HasPrefix(s, w) by {
        if |s| >= |w| {
          var head := ("/" + s)[..|SwaggerPrefix|];
          assert head == "/" + s[..|w|];
          assert SwaggerPrefix == "/" + w;
          assert head[1..] == s[..|w|] && SwaggerPrefix[1..] == w;
        }
      }
      if |path[0]| >= |w| {
        assert s[..|w|] == path[0][..|w|];
      } else if |s| >= |w| {
        var k := |path[0]|;
        assert s[k] == rest[0] == '/';
        assert s[..|w|][k] != w[k];
      }
    }
  }

  /** What the route's own chain answers once the rate limiter has let the request through. */
  function RouteOutcome(req: Request, verify: Jwt.TokenVerifier, users: map<nat, User>, roles: map<nat, Role>): (reply: Reply)
    ensures reply.Dispatched? ==>
              var r := Resolve(req.verb, req.path);
              r.Some? && r.value.handler == reply.handler
              && (r.value.jwt ==> Jwt.Authenticate(req.authorization, verify, users, roles).Authenticated?)
              && (r.value.allowed.Some? ==>
                    Authorization.HeaderUser(req.xUserId, users).Some?
                    && RoleName(roles, Authorization.HeaderUser(req.xUserId, users).value) in r.value.allowed.value)
    ensures reply == NoRoute <==> Resolve(req.verb, req.path).None?
    ensures reply.Rejected? ==> reply.status in {StatusUnauthorized, StatusForbidden}
  {
    match Resolve(req.verb, req.path)
    case None => NoRoute
    case Some(r) =>
      if r.jwt && Jwt.Authenticate(req.authorization, verify, users, roles).Unauthenticated? then
        Rejected(StatusUnauthorized)
      else if r.allowed.Some? && Authorization.AuthorizeDecision(req.xUserId, users, roles, r.allowed.value) != Next then
        Rejected(Authorization.AuthorizeDecision(req.xUserId, users, roles, r.allowed.value).status)
      else if r.handler == DocsRedirect then
        Redirected(StatusMovedPermanently, DocsLocation)
      else
        Dispatched(r.handler)
  }

  /** The whole pipeline: the limiter's verdict first, unless the path bypasses it. */
  function Outcome(clients: map<string, RL.ClientData>, req: Request, now: int,
                   verify: Jwt.TokenVerifier, users: map<nat, User>, roles: map<nat, Role>): (reply: Reply)
    ensures reply == Rejected(StatusTooManyRequests) <==>
              !BypassesRateLimiter(req.path) && !RL.Admits(RL.Count(RL.Lookup(clients, req.clientIp), now))
    ensures reply != Rejected(StatusTooManyRequests) ==> reply == RouteOutcome(req, verify, users, roles)
  {
    if !BypassesRateLimiter(req.path) && !RL.Admits(RL.Count(RL.Lookup(clients, req.clientIp), now)) then
      Rejected(StatusTooManyRequests)
    else
      RouteOutcome(req, verify, users, roles)
  }

  /** The limiter's table after the request. */
  function ClientsAfter(clients: map<string, RL.ClientData>, req: Request, now: int): (c: map<string, RL.ClientData>)
    ensures BypassesRateLimiter(req.path) ==> c == clients
    ensures !BypassesRateLimiter(req.path) ==>
              c.Keys == clients.Keys + {req.clientIp}
              && c[req.clientIp] == RL.Count(RL.Lookup(clients, req.clientIp), now)
              && forall ip :: ip in clients && ip != req.clientIp ==> c[ip] == clients[ip]
  {
    if BypassesRateLimiter(req.path) then clients
    else clients[req.clientIp := RL.Count(RL.Lookup(clients, req.clientIp), now)]
  }

  /**
   * One request through the engine. The limiter object lives as long as the
   * server, so its counts carry over from request to request.
   */
  method Serve(limiter: RL.Limiter, ctx: Context, req: Request, now: int,
               verify: Jwt.TokenVerifier, users: map<nat, User>, roles: map<nat, Role>)
    returns (reply: Reply)
    modifies limiter, ctx
    ensures reply == Outcome(old(limiter.clients), req, now, verify, users, roles)
    ensures limiter.clients == ClientsAfter(old(limiter.clients), req, now)
    ensures reply == NoRoute || reply == Rejected(StatusTooManyRequests) ==>
              ctx.userId == old(ctx.userId) && ctx.currentUser == old(ctx.currentUser)
    ensures Resolve(req.verb, req.path).Some? && !Resolve(req.verb, req.path).value.jwt
            && Resolve(req.verb, req.path).value.allowed.None? ==>
              ctx.userId == old(ctx.userId) && ctx.currentUser == old(ctx.currentUser)
    ensures reply.Dispatched? && Resolve(req.verb, req.path).value.jwt
            && Resolve(req.verb, req.path).value.allowed.None? ==>
              var id := Jwt.Authenticate(req.authorization, verify, users, roles).identity;
              ctx.userId == Some(id.id) && ctx.currentUser == Some(id)
    ensures reply.Dispatched? && Resolve(req.verb, req.path).value.allowed.Some? ==>
              var u := Authorization.HeaderUser(req.xUserId, users).value;
              ctx.userId == Some(u.id) && ctx.currentUser == Some(Identity(u.id, RoleName(roles, u)))
    ensures reply == Rejected(StatusUnauthorized) && Resolve(req.verb, req.path).value.jwt
            && Jwt.Authenticate(req.authorization, verify, users, roles).Unauthenticated? ==>
              ctx.userId == old(ctx.userId) && ctx.currentUser == old(ctx.currentUser)
    ensures reply == Rejected(StatusUnauthorized) && Resolve(req.verb, req.path).value.jwt
            && Jwt.Authenticate(req.authorization, verify, users, roles).Authenticated? ==>
              var id := Jwt.Authenticate(req.authorization, verify, users, roles).identity;
              ctx.userId == Some(id.id) && ctx.currentUser == Some(id)
    ensures reply == Rejected(StatusForbidden) ==>
              Authorization.HeaderUser(req.xUserId, users).Some?
              && var u := Authorization.HeaderUser(req.xUserId, users).value;
              ctx.userId == Some(u.id) && ctx.currentUser == Some(Identity(u.id, RoleName(roles, u)))
  {
    if !BypassesRateLimiter(req.path) {
      var g := limiter.Handle(req.clientIp, now);
      if g != Next {
        return Rejected(StatusTooManyRequests);
      }
    }
    var route := Resolve(req.verb, req.path);
    if route.None? {
      return NoRoute;
    }
    var r := route.value;
    if r.jwt {
      var g := Jwt.JWTAuthMiddleware(ctx, req.authorization, verify, users, roles);
      if g != Next {
        return Rejected(StatusUnauthorized);
      }
    }
    if r.allowed.Some? {
      var g := Authorization.Authorize(ctx, r.allowed.value, req.xUserId, users, roles);
      if g != Next {
        return Rejected(g.status);
      }
    }
    if r.handler == DocsRedirect {
      return Redirected(StatusMovedPermanently, DocsLocation);
    }
    return Dispatched(r.handler);
  }

  /** A group handler runs only for an X-User-ID naming an admin or a moderator. */
  lemma GroupHandlersNeedAdminOrModerator(clients: map<string, RL.ClientData>, req: Request, now: int,
                                          verify: Jwt.TokenVerifier, users: map<nat, User>, roles: map<nat, Role>)
    requires Outcome(clients, req, now, verify, users, roles).Dispatched?
    requires IsGroupHandler(Outcome(clients, req, now, verify, users, roles).handler)
    ensures Authorization.HeaderUser(req.xUserId, users).Some?
    ensures RoleName(roles, Authorization.HeaderUser(req.xUserId, users).value) in AdminOrModerator
  {
    var r := Resolve(req.verb, req.path).value;
    GroupHandlersAreAdminOrModerator(r);
  }

  /**
   * Behind JWT, an X-User-ID whose role is "user" reaches no handler other
   * than GetProfile: every other authenticated route has an allow-list without "user".
   */
  lemma UserRoleOnlyReachesProfile(clients: map<string, RL.ClientData>, req: Request, now: int,
                                   verify: Jwt.TokenVerifier, users: map<nat, User>, roles: map<nat, Role>)
    requires Authorization.HeaderUser(req.xUserId, users).Some?
    requires RoleName(roles, Authorization.HeaderUser(req.xUserId, users).value) == "user"
    requires Outcome(clients, req, now, verify, users, roles).Dispatched?
    requires Resolve(req.verb, req.path).value.jwt
    ensures Outcome(clients, req, now, verify, users, roles).handler == GetProfile
  {
    var r := Resolve(req.verb, req.path).value;
    if r.handler != GetProfile {
      UsersRoleOnlyReachesProfile(r);
    }
  }

  /** Paths starting with "/swagger" leave the limiter alone and are answered whatever its counts. */
  lemma SwaggerSkipsRateLimiter(clients: map<string, RL.ClientData>, other: map<string, RL.ClientData>, req: Request, now: int,
                                verify: Jwt.TokenVerifier, users: map<nat, User>, roles: map<nat, Role>)
    requires req.path != [] && HasPrefix(req.path[0], "swagger")
    ensures BypassesRateLimiter(req.path)
    ensures ClientsAfter(clients, req, now) == clients
    ensures Outcome(clients, req, now, verify, users, roles) == Outcome(other, req, now, verify, users, roles)
  {
    BypassIsFirstSegmentPrefix(req.path);
  }

  /** "/docs" does not start with "/swagger": it is counted, and redirects once admitted. */
  lemma DocsIsRateLimitedAndRedirects(clients: map<string, RL.ClientData>, req: Request, now: int,
                                      verify: Jwt.TokenVerifier, users: map<nat, User>, roles: map<nat, Role>)
    requires req.verb == GET && req.path == ["docs"]
    ensures !BypassesRateLimiter(req.path)
    ensures RL.Admits(RL.Count(RL.Lookup(clients, req.clientIp), now)) ==>
              Outcome(clients, req, now, verify, users, roles) == Redirected(StatusMovedPermanently, DocsLocation)
  {
    assert RawPath(req.path) == "/docs";
    assert Matches([Lit("docs")], req.path);
    var r := Resolve(req.verb, req.path);
    assert r.Some? by {
      assert MainRoutes()[1] in AllRoutes();
    }
    assert r.value.pattern == [Lit("docs")] by {
      assert r.value in AuthRoutes() || r.value in UserRoutes() || r.value in GroupRoutes() || r.value in MainRoutes();
    }
  }

  // ---- the role gate reads X-User-ID, not the token ----

  /**
   * An admin-only route runs for any authenticated caller, one whose account
   * has role "user" included, as soon as X-User-ID names an administrator:
   * JWT checks the token, Authorize checks the header's account, and nothing
   * compares the two.
   */
  lemma HeaderRoleOpensAdminRoute(clients: map<string, RL.ClientData>, req: Request, now: int,
                                  verify: Jwt.TokenVerifier, users: map<nat, User>, roles: map<nat, Role>)
    requires req.verb == DELETE && |req.path| == 2 && req.path[0] == "users" && req.path[1] != ""
    requires RL.Admits(RL.Count(RL.Lookup(clients, req.clientIp), now))
    requires TokenIdentity(req, verify, users, roles).Some?
    requires Authorization.HeaderUser(req.xUserId, users).Some?
    requires RoleName(roles, Authorization.HeaderUser(req.xUserId, users).value) == "admin"
    ensures Outcome(clients, req, now, verify, users, roles) == Dispatched(DeleteUser)
  {
    DeleteUserRouteResolves(req.path);
  }

  /** Account 1 has role "user", account 2 is an administrator, account 3 a moderator. */
  const SampleUsers: map<nat, User> := map[1 := User(1, "ann", "ann@example.com", "h1", 3, false),
                                           2 := User(2, "root", "root@example.com", "h2", 1, false),
                                           3 := User(3, "mo", "mo@example.com", "h3", 2, false)]
  const SampleRoles: map<nat, Role> := map[1 := Role(1, "admin", ""), 2 := Role(2, "moderator", ""),
                                           3 := Role(3, "user", "")]
  /** Accepts the token "t" as account 1's. */
  const SampleVerify: Jwt.TokenVerifier := (t: string) => if t == "t" then Some(1) else None
  /** DELETE /users/2 with account 1's token and X-User-ID: 2. */
  const SampleRequest := Request(DELETE, ["users", "2"], "10.0.0.1", "Bearer t", "2")

  /** The sample request meets HeaderRoleOpensAdminRoute's conditions: its token is a "user" account's, its header names an admin. */
  lemma SampleRequestOverridesRole()
    ensures TokenIdentity(SampleRequest, SampleVerify, SampleUsers, SampleRoles) == Some(Identity(1, "user"))
    ensures Authorization.HeaderUser(SampleRequest.xUserId, SampleUsers) == Some(SampleUsers[2])
    ensures RoleName(SampleRoles, SampleUsers[2]) == "admin"
  {
    assert HasPrefix(SampleRequest.authorization, Jwt.BearerPrefix);
    assert TrimPrefix(SampleRequest.authorization, Jwt.BearerPrefix) == "t";
    assert ParseId("2") == Some(2) by {
      assert IsDigit('2');
    }
  }

  /** DELETE /users/<non-empty id> is served by the DeleteUser route. */
  lemma DeleteUserRouteResolves(path: seq<string>)
    requires |path| == 2 && path[0] == "users" && path[1] != ""
    ensures Resolve(DELETE, path) == Some(Route(DELETE, [Lit("users"), Param], true, Some(AdminOnly), DeleteUser))
  {
    var d := Route(DELETE, [Lit("users"), Param], true, Some(AdminOnly), DeleteUser);
    assert d == UserRoutes()[4] && d in AllRoutes();
    assert Matches(d.pattern, path);
    var r := Resolve(DELETE, path).value;
    assert r in AuthRoutes() || r in UserRoutes() || r in GroupRoutes() || r in MainRoutes();
  }

  /** The "currentUser" the JWT middleware stores, if it admitted the token. */
  function TokenIdentity(req: Request, verify: Jwt.TokenVerifier, users: map<nat, User>, roles: map<nat, Role>): (id: Option<Identity>)
    ensures id.Some? <==> Jwt.Authenticate(req.authorization, verify, users, roles).Authenticated?
  {
    match Jwt.Authenticate(req.authorization, verify, users, roles)
    case Authenticated(identity) => Some(identity)
    case Unauthenticated => None
  }

  /**
   * The route chain with the allow-list applied to the token's identity
   * (RequireAnyRole over the JWT middleware's currentUser) instead of the
   * X-User-ID row.
   */
  function TokenGatedOutcome(req: Request, verify: Jwt.TokenVerifier, users: map<nat, User>, roles: map<nat, Role>): (reply: Reply)
    ensures reply.Dispatched? ==>
              var r := Resolve(req.verb, req.path);
              r.Some? && r.value.handler == reply.handler
              && (r.value.jwt ==> TokenIdentity(req, verify, users, roles).Some?)
              && (r.value.allowed.Some? ==>
                    TokenIdentity(req, verify, users, roles).Some?
                    && TokenIdentity(req, verify, users, roles).value.role in r.value.allowed.value)
    ensures reply == NoRoute <==> Resolve(req.verb, req.path).None?
    ensures reply.Rejected? ==> reply.status in {StatusUnauthorized, StatusForbidden}
  {
    match Resolve(req.verb, req.path)
    case None => NoRoute
    case Some(r) =>
      var caller := TokenIdentity(req, verify, users, roles);
      if r.jwt && caller.None? then
        Rejected(StatusUnauthorized)
      else if r.allowed.Some? && RoleGates.RequireAnyRole(caller, r.allowed.value) != Next then
        Rejected(RoleGates.RequireAnyRole(caller, r.allowed.value).status)
      else if r.handler == DocsRedirect then
        Redirected(StatusMovedPermanently, DocsLocation)
      else
        Dispatched(r.handler)
  }

  /** Gated on the token, a caller whose account has role "user" reaches no handler behind JWT but GetProfile. */
  lemma TokenGateKeepsUserRoleOnProfile(req: Request, verify: Jwt.TokenVerifier, users: map<nat, User>, roles: map<nat, Role>)
    requires TokenIdentity(req, verify, users, roles).Some?
    requires TokenIdentity(req, verify, users, roles).value.role == "user"
    requires TokenGatedOutcome(req, verify, users, roles).Dispatched?
    requires Resolve(req.verb, req.path).value.jwt
    ensures TokenGatedOutcome(req, verify, users, roles).handler == GetProfile
  {
    var r := Resolve(req.verb, req.path).value;
    if r.handler != GetProfile {
      UsersRoleOnlyReachesProfile(r);
    }
  }

  /** Gated on the token, the requests of HeaderRoleOpensAdminRoute are refused with 403 whatever X-User-ID says. */
  lemma TokenGateRefusesUserRole(req: Request, verify: Jwt.TokenVerifier, users: map<nat, User>, roles: map<nat, Role>)
    requires req.verb == DELETE && |req.path| == 2 && req.path[0] == "users" && req.path[1] != ""
    requires TokenIdentity(req, verify, users, roles).Some?
    requires TokenIdentity(req, verify, users, roles).value.role == "user"
    ensures TokenGatedOutcome(req, verify, users, roles) == Rejected(StatusForbidden)
  {
    DeleteUserRouteResolves(req.path);
    assert "user" !in AdminOnly;
  }

  /**
   * The same hole on a route whose handler reads only "userID": any
   * authenticated caller deletes a group as soon as X-User-ID names an
   * administrator or a moderator, and the deletion is logged under that
   * header's account.
   */
  lemma HeaderRoleOpensGroupRoute(clients: map<string, RL.ClientData>, req: Request, now: int,
                                  verify: Jwt.TokenVerifier, users: map<nat, User>, roles: map<nat, Role>)
    requires req.verb == DELETE && |req.path| == 2 && req.path[0] == "groups" && req.path[1] != ""
    requires RL.Admits(RL.Count(RL.Lookup(clients, req.clientIp), now))
    requires TokenIdentity(req, verify, users, roles).Some?
    requires Authorization.HeaderUser(req.xUserId, users).Some?
    requires RoleName(roles, Authorization.HeaderUser(req.xUserId, users).value) in AdminOrModerator
    ensures Outcome(clients, req, now, verify, users, roles) == Dispatched(DeleteGroup)
  {
    DeleteGroupRouteResolves(req.path);
  }

  /** DELETE /groups/1 with account 1's token and X-User-ID: 3. */
  const SampleGroupRequest := Request(DELETE, ["groups", "1"], "10.0.0.1", "Bearer t", "3")

  /** The sample group request meets HeaderRoleOpensGroupRoute's conditions: a "user" token, a moderator's header. */
  lemma SampleGroupRequestOverridesRole()
    ensures TokenIdentity(SampleGroupRequest, SampleVerify, SampleUsers, SampleRoles) == Some(Identity(1, "user"))
    ensures Authorization.HeaderUser(SampleGroupRequest.xUserId, SampleUsers) == Some(SampleUsers[3])
    ensures RoleName(SampleRoles, SampleUsers[3]) == "moderator"
  {
    assert HasPrefix(SampleGroupRequest.authorization, Jwt.BearerPrefix);
    assert TrimPrefix(SampleGroupRequest.authorization, Jwt.BearerPrefix) == "t";
    assert ParseId("3") == Some(3) by {
      assert IsDigit('3');
    }
  }

  /** DELETE /groups/<non-empty id> is served by the DeleteGroup route. */
  lemma DeleteGroupRouteResolves(path: seq<string>)
    requires |path| == 2 && path[0] == "groups" && path[1] != ""
    ensures Resolve(DELETE, path) == Some(Route(DELETE, [Lit("groups"), Param], true, Some(AdminOrModerator), DeleteGroup))
  {
    var d := Route(DELETE, [Lit("groups"), Param], true, Some(AdminOrModerator), DeleteGroup);
    assert d == GroupRoutes()[3] && d in AllRoutes();
    assert Matches(d.pattern, path);
    var r := Resolve(DELETE, path).value;
    assert r in AuthRoutes() || r in UserRoutes() || r in GroupRoutes() || r in MainRoutes();
  }

  /** Gated on the token, the requests of HeaderRoleOpensGroupRoute from a "user" account are refused with 403. */
  lemma TokenGateRefusesUserRoleOnGroups(req: Request, verify: Jwt.TokenVerifier, users: map<nat, User>, roles: map<nat, Role>)
    requires req.verb == DELETE && |req.path| == 2 && req.path[0] == "groups" && req.path[1] != ""
    requires TokenIdentity(req, verify, users, roles).Some?
    requires TokenIdentity(req, verify, users, roles).value.role == "user"
    ensures TokenGatedOutcome(req, verify, users, roles) == Rejected(StatusForbidden)
  {
    DeleteGroupRouteResolves(req.path);
    assert "user" !in AdminOrModerator;
  }
}

=== FILE: store.dfy ===
/**
 * The relational store behind config.DB, held in memory. Each method is one
 * GORM call the handlers make; `fault` stands for a failure of the database
 * itself (connection, I/O), while constraint violations follow from the
 * tables' contents.
 */
module Store {
  import opened Wrappers
  import opened Models

  predicate EmailTaken(users: map<nat, User>, email: string) {
    exists id :: id in users && users[id].email == email
  }

  predicate EmailTakenByOther(users: map<nat, User>, email: string, self: nat) {
    exists id :: id in users && id != self && users[id].email == email
  }

  predicate RoleNameTaken(roles: map<nat, Role>, name: string) {
    exists id :: id in roles && roles[id].name == name
  }

  predicate GroupNameTakenByOther(groups: map<nat, Group>, name: string, self: nat) {
    exists id :: id in groups && id != self && groups[id].name == name
  }

  /** The join table has no row for this user (so its foreign key lets the user row go). */
  predicate NotInAnyGroup(rows: seq<Membership>, userId: nat) {
    forall m :: m in rows ==> m.userId != userId
  }

  predicate GroupHasNoRows(rows: seq<Membership>, groupId: nat) {
    forall m :: m in rows ==> m.groupId != groupId
  }

  /** The row after a struct update of Name and Email: zero values (empty strings) are skipped. */
  function WithNameEmail(u: User, name: string, email: string): (r: User)
    ensures r.id == u.id && r.passwordHash == u.passwordHash && r.roleId == u.roleId && r.isBanned == u.isBanned
    ensures r.name == (if name == "" then u.name else name)
    ensures r.email == (if email == "" then u.email else email)
  {
    u.(name := if name != "" then name else u.name, email := if email != "" then email else u.email)
  }

  class Database {
    var users: map<nat, User>
    var roles: map<nat, Role>
    var groups: map<nat, Group>
    var groupUsers: seq<Membership>
    var logs: seq<ActivityLog>
    // next value of each table's auto-increment primary key
    var nextUserId: nat
    var nextRoleId: nat
    var nextGroupId: nat
    var nextLogId: nat

    ghost predicate Valid()
      reads this
    {
      && 0 < nextUserId && 0 < nextRoleId && 0 < nextGroupId
      && UsersTable(users, roles, nextUserId)
      && RolesTable(roles, nextRoleId)
      && GroupsTable(groups, nextGroupId)
      && JoinTable(groupUsers, groups, users)
    }

    constructor ()
      ensures Valid()
      ensures users == map[] && roles == map[] && groups == map[] && groupUsers == [] && logs == []
    {
      users, roles, groups, groupUsers, logs := map[], map[], map[], [], [];
      nextUserId, nextRoleId, nextGroupId, nextLogId := 1, 1, 1, 1;
    }

    /** db.Create(&user): refused on a duplicate email or a RoleID with no role. */
    method CreateUser(name: string, email: string, hash: string, roleId: nat, fault: bool) returns (id: Option<nat>)
      requires Valid()
      modifies this`users, this`nextUserId
      ensures Valid()
      ensures id.Some? <==> !fault && !EmailTaken(old(users), email) && roleId in roles
      ensures id.Some? ==> id.value == old(nextUserId) && nextUserId == old(nextUserId) + 1
      ensures id.Some? ==> users == old(users)[id.value := User(id.value, name, email, hash, roleId, false)]
      ensures id.None? ==> users == old(users) && nextUserId == old(nextUserId)
    {
      if fault || EmailTaken(users, email) || roleId !in roles {
        return None;
      }
      id := Some(nextUserId);
      assert forall k :: k in users ==> users[k].email != email && k != nextUserId;
      users := users[nextUserId := User(nextUserId, name, email, hash, roleId, false)];
      nextUserId := nextUserId + 1;
    }

    /** db.Save(&user) on a loaded row: writes every column back. */
    method SaveUser(u: User, fault: bool) returns (ok: bool)
      requires Valid() && u.id in users
      modifies this`users
      ensures Valid()
      ensures ok <==> !fault && !EmailTakenByOther(old(users), u.email, u.id) && u.roleId in roles
      ensures users == if ok then old(users)[u.id := u] else old(users)
    {
      ok := !fault && !EmailTakenByOther(users, u.email, u.id) && u.roleId in roles;
      if ok {
        users := users[u.id := u];
      }
    }

    /**
     * db.Model(&user).Updates(User{Name, Email}): a struct update writes only
     * its non-zero fields, so an empty name or email leaves that column as it was.
     */
    method UpdateNameEmail(id: nat, name: string, email: string, fault: bool) returns (ok: bool)
      requires Valid() && id in users
      modifies this`users
      ensures Valid()
      ensures ok <==> !fault && (email == "" || !EmailTakenByOther(old(users), email, id))
      ensures users == if ok then old(users)[id := WithNameEmail(old(users)[id], name, email)] else old(users)
    {
      var u := WithNameEmail(users[id], name, email);
      ok := !fault && (email == "" || !EmailTakenByOther(users, email, id));
      if ok {
        assert !EmailTakenByOther(users, u.email, id);
        users := users[id := u];
      }
    }

    /** db.Unscoped().Delete(&user): a hard delete, refused by group_users' foreign key while the user is a member. */
    method DeleteUser(id: nat, fault: bool) returns (ok: bool)
      requires Valid()
      modifies this`users
      ensures Valid()
      ensures ok <==> !fault && NotInAnyGroup(groupUsers, id)
      ensures users == if ok then old(users) - {id} else old(users)
    {
      ok := !fault && NotInAnyGroup(groupUsers, id);
      if ok {
        users := users - {id};
      }
    }

    /** db.Create(&role): refused on a duplicate name. */
    method CreateRole(name: string, description: string, fault: bool) returns (ok: bool)
      requires Valid()
      modifies this`roles, this`nextRoleId
      ensures Valid()
      ensures ok <==> !fault && !RoleNameTaken(old(roles), name)
      ensures ok ==> (roles == old(roles)[old(nextRoleId) := Role(old(nextRoleId), name, description)]
                      && nextRoleId == old(nextRoleId) + 1)
      ensures !ok ==> roles == old(roles) && nextRoleId == old(nextRoleId)
    {
      ok := !fault && !RoleNameTaken(roles, name);
      if ok {
        assert forall k :: k in roles ==> roles[k].name != name && k != nextRoleId;
        roles := roles[nextRoleId := Role(nextRoleId, name, description)];
        nextRoleId := nextRoleId + 1;
      }
    }

    /** db.Create(&group): refused on a duplicate name. */
    method CreateGroup(name: string, fault: bool) returns (id: Option<nat>)
      requires Valid()
      modifies this`groups, this`nextGroupId
      ensures Valid()
      ensures id.Some? <==> !fault && !GroupNameTakenByOther(old(groups), name, 0)
      ensures id.Some? ==> id.value == old(nextGroupId) && nextGroupId == old(nextGroupId) + 1
      ensures id.Some? ==> groups == old(groups)[id.value := Group(id.value, name)]
      ensures id.None? ==> groups == old(groups) && nextGroupId == old(nextGroupId)
    {
      if fault || GroupNameTakenByOther(groups, name, 0) {
        return None;
      }
      id := Some(nextGroupId);
      assert forall k :: k in groups ==> groups[k].name != name && k != nextGroupId;
      groups := groups[nextGroupId := Group(nextGroupId, name)];
      nextGroupId := nextGroupId + 1;
    }

    /** db.Save(&group) on a loaded row. */
    method SaveGroup(g: Group, fault: bool) returns (ok: bool)
      requires Valid() && g.id in groups
      modifies this`groups
      ensures Valid()
      ensures ok <==> !fault && !GroupNameTakenByOther(old(groups), g.name, g.id)
      ensures groups == if ok then old(groups)[g.id := g] else old(groups)
    {
      ok := !fault && !GroupNameTakenByOther(groups, g.name, g.id);
      if ok {
        groups := groups[g.id := g];
      }
    }

    /** db.Unscoped().Delete(&group): refused by group_users' foreign key while the group has rows. */
    method DeleteGroup(id: nat, fault: bool) returns (ok: bool)
      requires Valid()
      modifies this`groups
      ensures Valid()
      ensures ok <==> !fault && GroupHasNoRows(groupUsers, id)
      ensures groups == if ok then old(groups) - {id} else old(groups)
    {
      ok := !fault && GroupHasNoRows(groupUsers, id);
      if ok {
        groups := groups - {id};
      }
    }

    /** db.Model(&group).Association("Users").Clear() */
    method ClearMembers(groupId: nat, fault: bool) returns (ok: bool)
      requires Valid()
      modifies this`groupUsers
      ensures Valid()
      ensures ok == !fault
      ensures groupUsers == if ok then WithoutGroup(old(groupUsers), groupId) else old(groupUsers)
    {
      ok := !fault;
      if ok {
        groupUsers := WithoutGroup(groupUsers, groupId);
      }
    }

    /** db.Model(&group).Association("Users").Append(&user): an existing row is kept as it is. */
    method AppendMember(groupId: nat, userId: nat, fault: bool) returns (ok: bool)
      requires Valid() && groupId in groups && userId in users
      modifies this`groupUsers
      ensures Valid()
      ensures ok == !fault
      ensures var row := Membership(groupId, userId);
              groupUsers == if ok && row !in old(groupUsers) then old(groupUsers) + [row] else old(groupUsers)
    {
      ok := !fault;
      var row := Membership(groupId, userId);
      if ok && row !in groupUsers {
        groupUsers := groupUsers + [row];
      }
    }

    /** db.Model(&group).Association("Users").Unscoped().Delete(&user) */
    method DeleteMember(groupId: nat, userId: nat, fault: bool) returns (ok: bool)
      requires Valid()
      modifies this`groupUsers
      ensures Valid()
      ensures ok == !fault
      ensures groupUsers == if ok then WithoutRow(old(groupUsers), Membership(groupId, userId)) else old(groupUsers)
    {
      ok := !fault;
      if ok {
        groupUsers := WithoutRow(groupUsers, Membership(groupId, userId));
      }
    }

    /** db.Create(&log) for an activity record. */
    method CreateLog(userId: nat, action: Action, now: int, fault: bool) returns (ok: bool)
      requires Valid()
      modifies this`logs, this`nextLogId
      ensures Valid()
      ensures ok == !fault
      ensures logs == if ok then old(logs) + [ActivityLog(old(nextLogId), userId, action, now)] else old(logs)
      ensures nextLogId == if ok then old(nextLogId) + 1 else old(nextLogId)
    {
      ok := !fault;
      if ok {
        logs := logs + [ActivityLog(nextLogId, userId, action, now)];
        nextLogId := nextLogId + 1;
      }
    }
  }
}

=== FILE: text.dfy ===
/**
 * String helpers: the two of Go's `strings` package the request pipeline uses,
 * and the decimal reading GORM gives a primary key passed as a string.
 */
module Text {
  import opened Wrappers

  /** strings.HasPrefix */
  predicate HasPrefix(s: string, p: string) {
    |p| <= |s| && s[..|p|] == p
  }

  /** strings.TrimPrefix: removes one leading occurrence of `p`, if there is one. */
  function TrimPrefix(s: string, p: string): (r: string)
    ensures HasPrefix(s, p) ==> p + r == s
    ensures !HasPrefix(s, p) ==> r == s
  {
    if HasPrefix(s, p) then
      assert s == s[..|p|] + s[|p|..];
      s[|p|..]
    else s
  }

  predicate IsDigit(c: char) {
    '0' <= c <= '9'
  }

  function DecimalValue(s: string): nat
    requires forall i :: 0 <= i < |s| ==> IsDigit(s[i])
  {
    if s == [] then 0
    else
      assert IsDigit(s[|s| - 1]);
      DecimalValue(s[..|s| - 1]) * 10 + (s[|s| - 1] as int - '0' as int)
  }

  /** The key a string names when it is a plain decimal numeral; any other string names no row. */
  function ParseId(s: string): (r: Option<nat>)
    ensures r.Some? <==> s != [] && forall i :: 0 <= i < |s| ==> IsDigit(s[i])
  {
    if s != [] && forall i :: 0 <= i < |s| ==> IsDigit(s[i]) then Some(DecimalValue(s)) else None
  }
}

=== FILE: user_handlers.dfy ===
/**
 * The handlers of handlers/user.go. Each receives the context's
 * "currentUser" (None when no middleware set it), the `:id` path parameter as
 * text, the decoded body, the clock reading `now` and one `...Fault` flag per
 * database write. The activity record goes through services.LogAction, whose
 * failure is logged and otherwise ignored (`logFault`).
 */
module UserHandlers {
  import opened Wrappers
  import opened Http
  import opened Models
  import opened Store
  import opened Dto
  import opened Xss
  import opened ActivityLogging
  import opened AuthHandlers

  /** The edit rule of UpdateUser: one's own row, or any row for an admin or a moderator. */
  predicate MayEdit(current: Identity, targetId: nat) {
    current.id == targetId || current.role == "admin" || current.role == "moderator"
  }

  /** One record by `actor` at `now`, or none when the log write failed. */
  predicate LoggedOnce(before: seq<ActivityLog>, after: seq<ActivityLog>, nextLogId: nat,
                       actor: nat, action: Action, now: int, logFault: bool) {
    after == if logFault then before else before + [ActivityLog(nextLogId, actor, action, now)]
  }

  /** CreateUser: bind, sanitize all three fields, hash the sanitized password, insert with role 3. */
  method CreateUser(db: Database, currentUser: Option<Identity>, input: CreateUserInput, isEmail: EmailFormat,
                    hasher: Hasher, now: int, createFault: bool, logFault: bool)
    returns (status: int)
    requires db.Valid()
    modifies db`users, db`nextUserId, db`logs, db`nextLogId, input
    ensures db.Valid()
    ensures !old(input.Binds(isEmail)) ==> status == StatusBadRequest && db.users == old(db.users)
    ensures old(input.Binds(isEmail)) ==>
              input.name == SanitizeInput(old(input.name)) && input.email == SanitizeInput(old(input.email))
              && input.password == SanitizeInput(old(input.password))
    ensures status == StatusCreated <==>
              old(input.Binds(isEmail)) && hasher(input.password).Some? && !createFault
              && !EmailTaken(old(db.users), input.email) && DefaultRoleId in db.roles
    ensures status == StatusCreated ==>
              db.users == old(db.users)[old(db.nextUserId) :=
                User(old(db.nextUserId), input.name, input.email, hasher(input.password).value, DefaultRoleId, false)]
    ensures status != StatusCreated ==> db.users == old(db.users) && db.logs == old(db.logs)
    ensures status == StatusCreated && currentUser.Some? ==>
              LoggedOnce(old(db.logs), db.logs, old(db.nextLogId), currentUser.value.id, CreatedUser(input.name), now, logFault)
    ensures currentUser.None? ==> db.logs == old(db.logs)
    ensures old(input.Binds(isEmail)) && hasher(input.password).None? ==> status == StatusInternalServerError
    ensures status in {StatusCreated, StatusBadRequest, StatusInternalServerError}
  {
    if !input.Binds(isEmail) {
      return StatusBadRequest;
    }
    input.Sanitize();
    var hashed := hasher(input.password);
    if hashed.None? {
      return StatusInternalServerError;
    }
    var id := db.CreateUser(input.name, input.email, hashed.value, DefaultRoleId, createFault);
    if id.None? {
      return StatusBadRequest;
    }
    if currentUser.Some? {
      var _ := LogAction(db, currentUser.value.id, CreatedUser(input.name), now, logFault);
    }
    return StatusCreated;
  }

  /** GetUsers: all users, or those of the role named by the `role` query parameter. */
  method GetUsers(db: Database, currentUser: Option<Identity>, roleFilter: string, fault: bool)
    returns (status: int, listed: map<nat, User>)
    requires db.Valid()
    ensures currentUser.None? ==> status == StatusUnauthorized
    ensures currentUser.Some? && roleFilter != "" && FindRoleByName(db.roles, roleFilter).None? ==>
              status == StatusBadRequest
    ensures status == StatusOK <==>
              currentUser.Some? && (roleFilter == "" || FindRoleByName(db.roles, roleFilter).Some?) && !fault
    ensures status == StatusOK && roleFilter == "" ==> listed == db.users
    ensures status == StatusOK && roleFilter != "" ==>
              forall id :: id in listed <==> id in db.users && RoleName(db.roles, db.users[id]) == roleFilter
    ensures forall id :: id in listed ==> id in db.users && listed[id] == db.users[id]
    ensures status in {StatusOK, StatusUnauthorized, StatusBadRequest, StatusInternalServerError}
  {
    listed := map[];
    if currentUser.None? {
      return StatusUnauthorized, listed;
    }
    var query := db.users;
    if roleFilter != "" {
      var role := FindRoleByName(db.roles, roleFilter);
      if role.None? {
        return StatusBadRequest, listed;
      }
      query := UsersOfRole(db.users, role.value.id);
      FindRoleByStoredName(db.roles, db.nextRoleId, role.value.id);
    }
    if fault {
      return StatusInternalServerError, listed;
    }
    return StatusOK, query;
  }

  /**
   * UpdateUser: 401, then 404 for an unknown target, then the edit rule (403),
   * then binding (400); only Name and Email change, and an empty value is skipped.
   */
  method UpdateUser(db: Database, currentUser: Option<Identity>, idParam: string, input: UpdateUserInput,
                    isEmail: EmailFormat, now: int, updateFault: bool, logFault: bool)
    returns (status: int)
    requires db.Valid()
    modifies db`users, db`logs, db`nextLogId, input
    ensures db.Valid()
    ensures currentUser.None? ==> status == StatusUnauthorized
    ensures currentUser.Some? && FindById(old(db.users), idParam).None? ==> status == StatusNotFound
    ensures (currentUser.Some? && FindById(old(db.users), idParam).Some?
             && !MayEdit(currentUser.value, FindById(old(db.users), idParam).value.id)) ==> status == StatusForbidden
    ensures (currentUser.Some? && FindById(old(db.users), idParam).Some?
             && MayEdit(currentUser.value, FindById(old(db.users), idParam).value.id)
             && !old(input.Binds(isEmail))) ==> status == StatusBadRequest
    ensures (currentUser.Some? && FindById(old(db.users), idParam).Some?
             && MayEdit(currentUser.value, FindById(old(db.users), idParam).value.id)
             && old(input.Binds(isEmail)) && status != StatusOK) ==> status == StatusInternalServerError
    ensures status == StatusOK <==>
              currentUser.Some? && FindById(old(db.users), idParam).Some?
              && MayEdit(currentUser.value, FindById(old(db.users), idParam).value.id)
              && old(input.Binds(isEmail)) && !updateFault
              && (input.email == "" || !EmailTakenByOther(old(db.users), input.email, FindById(old(db.users), idParam).value.id))
    ensures status == StatusOK ==>
              var target := FindById(old(db.users), idParam).value;
              input.name == SanitizeInput(old(input.name)) && input.email == SanitizeInput(old(input.email))
              && db.users == old(db.users)[target.id := WithNameEmail(target, input.name, input.email)]
              && LoggedOnce(old(db.logs), db.logs, old(db.nextLogId), currentUser.value.id,
                            UpdatedUser(db.users[target.id].name), now, logFault)
    ensures status != StatusOK ==> db.users == old(db.users) && db.logs == old(db.logs)
    ensures status in {StatusOK, StatusUnauthorized, StatusNotFound, StatusForbidden, StatusBadRequest, StatusInternalServerError}
  {
    if currentUser.None? {
      return StatusUnauthorized;
    }
    var current := currentUser.value;
    var found := FindById(db.users, idParam);
    if found.None? {
      return StatusNotFound;
    }
    var user := found.value;
    assert user.id in db.users;
    if current.id != user.id && current.role != "admin" && current.role != "moderator" {
      return StatusForbidden;
    }
    if !input.Binds(isEmail) {
      return StatusBadRequest;
    }
    input.Sanitize();
    var ok := db.UpdateNameEmail(user.id, input.name, input.email, updateFault);
    if !ok {
      return StatusInternalServerError;
    }
    var _ := LogAction(db, current.id, UpdatedUser(db.users[user.id].name), now, logFault);
    return StatusOK;
  }

  /** DeleteUser: 401, 404, then a hard delete whose outcome is not checked; the reply is 200 either way. */
  method DeleteUser(db: Database, currentUser: Option<Identity>, idParam: string, now: int, deleteFault: bool, logFault: bool)
    returns (status: int)
    requires db.Valid()
    modifies db`users, db`logs, db`nextLogId
    ensures db.Valid()
    ensures currentUser.None? ==> status == StatusUnauthorized
    ensures currentUser.Some? && FindById(old(db.users), idParam).None? ==> status == StatusNotFound
    ensures status == StatusOK <==> currentUser.Some? && FindById(old(db.users), idParam).Some?
    ensures status == StatusOK ==>
              var target := FindById(old(db.users), idParam).value;
              db.users == (if !deleteFault && NotInAnyGroup(db.groupUsers, target.id) then old(db.users) - {target.id} else old(db.users))
              && LoggedOnce(old(db.logs), db.logs, old(db.nextLogId), currentUser.value.id, DeletedUser(target.name), now, logFault)
    ensures status != StatusOK ==> db.users == old(db.users) && db.logs == old(db.logs)
  {
    if currentUser.None? {
      return StatusUnauthorized;
    }
    var found := FindById(db.users, idParam);
    if found.None? {
      return StatusNotFound;
    }
    var user := found.value;
    assert db.users[user.id] == user;
    var _ := db.DeleteUser(user.id, deleteFault);
    var _ := LogAction(db, currentUser.value.id, DeletedUser(user.name), now, logFault);
    return StatusOK;
  }

  /** UpdateUserRole: 401, 404, 400 for a missing or unknown role name; success points RoleID at that role. */
  method UpdateUserRole(db: Database, currentUser: Option<Identity>, idParam: string, roleName: string,
                        now: int, saveFault: bool, logFault: bool)
    returns (status: int)
    requires db.Valid()
    modifies db`users, db`logs, db`nextLogId
    ensures db.Valid()
    ensures currentUser.None? ==> status == StatusUnauthorized
    ensures currentUser.Some? && FindById(old(db.users), idParam).None? ==> status == StatusNotFound
    ensures (currentUser.Some? && FindById(old(db.users), idParam).Some?
             && (!RoleNameBinds(roleName) || FindRoleByName(db.roles, roleName).None?)) ==> status == StatusBadRequest
    ensures status == StatusOK <==>
              currentUser.Some? && FindById(old(db.users), idParam).Some?
              && RoleNameBinds(roleName) && FindRoleByName(db.roles, roleName).Some? && !saveFault
    ensures status == StatusOK ==>
              var target := FindById(old(db.users), idParam).value;
              var role := FindRoleByName(db.roles, roleName).value;
              db.users == old(db.users)[target.id := target.(roleId := role.id)]
              && RoleName(db.roles, db.users[target.id]) == roleName
              && LoggedOnce(old(db.logs), db.logs, old(db.nextLogId), currentUser.value.id,
                            ChangedRole(target.name, RoleName(db.roles, target), roleName), now, logFault)
    ensures status != StatusOK ==> db.users == old(db.users) && db.logs == old(db.logs)
    ensures status in {StatusOK, StatusUnauthorized, StatusNotFound, StatusBadRequest, StatusInternalServerError}
  {
    if currentUser.None? {
      return StatusUnauthorized;
    }
    var found := FindById(db.users, idParam);
    if found.None? {
      return StatusNotFound;
    }
    var user := found.value;
    if !RoleNameBinds(roleName) {
      return StatusBadRequest;
    }
    var role := FindRoleByName(db.roles, roleName);
    if role.None? {
      return StatusBadRequest;
    }
    var oldRole := RoleName(db.roles, user);
    assert user.id in db.users && db.users[user.id] == user;
    assert role.value.id in db.roles && db.roles[role.value.id] == role.value;
    var ok := db.SaveUser(user.(roleId := role.value.id), saveFault);
    if !ok {
      return StatusInternalServerError;
    }
    var _ := LogAction(db, currentUser.value.id, ChangedRole(user.name, oldRole, role.value.name), now, logFault);
    return StatusOK;
  }

  /** BanUser and UnbanUser share this toggle: 400 when the flag already has the wanted value. */
  method SetBanned(db: Database, currentUser: Option<Identity>, idParam: string, banned: bool,
                   now: int, saveFault: bool, logFault: bool)
    returns (status: int)
    requires db.Valid()
    modifies db`users, db`logs, db`nextLogId
    ensures db.Valid()
    ensures currentUser.None? ==> status == StatusUnauthorized
    ensures currentUser.Some? && FindById(old(db.users), idParam).None? ==> status == StatusNotFound
    ensures (currentUser.Some? && FindById(old(db.users), idParam).Some?
             && FindById(old(db.users), idParam).value.isBanned == banned) ==> status == StatusBadRequest
    ensures status == StatusOK <==>
              currentUser.Some? && FindById(old(db.users), idParam).Some?
              && FindById(old(db.users), idParam).value.isBanned != banned && !saveFault
    ensures status == StatusOK ==>
              var target := FindById(old(db.users), idParam).value;
              db.users == old(db.users)[target.id := target.(isBanned := banned)]
              && LoggedOnce(old(db.logs), db.logs, old(db.nextLogId), currentUser.value.id,
                            if banned then BannedUser(target.name) else UnbannedUser(target.name), now, logFault)
    ensures status != StatusOK ==> db.users == old(db.users) && db.logs == old(db.logs)
    ensures status in {StatusOK, StatusUnauthorized, StatusNotFound, StatusBadRequest, StatusInternalServerError}
  {
    if currentUser.None? {
      return StatusUnauthorized;
    }
    var found := FindById(db.users, idParam);
    if found.None? {
      return StatusNotFound;
    }
    var user := found.value;
    if user.isBanned == banned {
      return StatusBadRequest;
    }
    assert user.id in db.users && db.users[user.id] == user;
    var ok := db.SaveUser(user.(isBanned := banned), saveFault);
    if !ok {
      return StatusInternalServerError;
    }
    var action := if banned then BannedUser(user.name) else UnbannedUser(user.name);
    var _ := LogAction(db, currentUser.value.id, action, now, logFault);
    return StatusOK;
  }

  method BanUser(db: Database, currentUser: Option<Identity>, idParam: string, now: int, saveFault: bool, logFault: bool)
    returns (status: int)
    requires db.Valid()
    modifies db`users, db`logs, db`nextLogId
    ensures db.Valid()
    ensures status == StatusOK <==>
              currentUser.Some? && FindById(old(db.users), idParam).Some?
              && !FindById(old(db.users), idParam).value.isBanned && !saveFault
    ensures status == StatusOK ==>
              var target := FindById(old(db.users), idParam).value;
              db.users == old(db.users)[target.id := target.(isBanned := true)]
              && LoggedOnce(old(db.logs), db.logs, old(db.nextLogId), currentUser.value.id,
                            BannedUser(target.name), now, logFault)
    ensures currentUser.None? ==> status == StatusUnauthorized
    ensures currentUser.Some? && FindById(old(db.users), idParam).None? ==> status == StatusNotFound
    ensures (currentUser.Some? && FindById(old(db.users), idParam).Some?
             && FindById(old(db.users), idParam).value.isBanned) ==> status == StatusBadRequest
    ensures status != StatusOK ==> db.users == old(db.users) && db.logs == old(db.logs)
  {
    status := SetBanned(db, currentUser, idParam, true, now, saveFault, logFault);
  }

  method UnbanUser(db: Database, currentUser: Option<Identity>, idParam: string, now: int, saveFault: bool, logFault: bool)
    returns (status: int)
    requires db.Valid()
    modifies db`users, db`logs, db`nextLogId
    ensures db.Valid()
    ensures status == StatusOK <==>
              currentUser.Some? && FindById(old(db.users), idParam).Some?
              && FindById(old(db.users), idParam).value.isBanned && !saveFault
    ensures status == StatusOK ==>
              var target := FindById(old(db.users), idParam).value;
              db.users == old(db.users)[target.id := target.(isBanned := false)]
              && LoggedOnce(old(db.logs), db.logs, old(db.nextLogId), currentUser.value.id,
                            UnbannedUser(target.name), now, logFault)
    ensures currentUser.None? ==> status == StatusUnauthorized
    ensures currentUser.Some? && FindById(old(db.users), idParam).None? ==> status == StatusNotFound
    ensures (currentUser.Some? && FindById(old(db.users), idParam).Some?
             && !FindById(old(db.users), idParam).value.isBanned) ==> status == StatusBadRequest
    ensures status != StatusOK ==> db.users == old(db.users) && db.logs == old(db.logs)
  {
    status := SetBanned(db, currentUser, idParam, false, now, saveFault, logFault);
  }

  /** GetProfile: the caller's own row; a row that cannot be loaded is a 500, not a 404. */
  method GetProfile(db: Database, currentUser: Option<Identity>, fault: bool)
    returns (status: int, profile: Option<User>)
    requires db.Valid()
    ensures currentUser.None? ==> status == StatusUnauthorized && profile.None?
    ensures currentUser.Some? ==>
              (status == StatusOK <==> !fault && currentUser.value.id in db.users)
    ensures status == StatusOK ==> profile == Some(db.users[currentUser.value.id])
    ensures status != StatusOK ==> profile.None?
    ensures status in {StatusOK, StatusUnauthorized, StatusInternalServerError}
  {
    if currentUser.None? {
      return StatusUnauthorized, None;
    }
    var id := currentUser.value.id;
    if fault || id !in db.users {
      return StatusInternalServerError, None;
    }
    return StatusOK, Some(db.users[id]);
  }
}

=== FILE: wrappers.dfy ===
/** Option, for lookups that may find nothing. */
module Wrappers {
  datatype Option<+T> = None | Some(value: T)
}

=== FILE: xss.dfy ===
/** utils.SanitizeInput: HTML-escape a string, then trim surrounding whitespace. */
module Xss {
  import opened Text

  /** Characters html.EscapeString rewrites. */
  predicate IsSpecial(c: char) {
    c == '&' || c == '\'' || c == '<' || c == '>' || c == '"'
  }

  /** The four markup characters that never survive escaping ('&' does, as the head of an entity). */
  predicate IsMarkup(c: char) {
    c == '\'' || c == '<' || c == '>' || c == '"'
  }

  /** The replacement table of html.EscapeString. */
  function EscapeChar(c: char): (r: string)
    ensures IsSpecial(c) ==> 4 <= |r| <= 5 && r[0] == '&' && r[|r| - 1] == ';'
    ensures !IsSpecial(c) ==> r == [c]
  {
    match c
    case '&' => "&amp;"
    case '\'' => "&#39;"
    case '<' => "&lt;"
    case '>' => "&gt;"
    case '"' => "&#34;"
    case _ => [c]
  }

  /** html.EscapeString: every special character replaced by its entity, all else kept. */
  function EscapeString(s: string): (r: string)
    ensures |r| >= |s|
    ensures forall i :: 0 <= i < |r| ==> !IsMarkup(r[i])
  {
    if s == [] then []
    else EscapeChar(s[0]) + EscapeString(s[1..])
  }

  /** The ASCII subset of the white space strings.TrimSpace removes. */
  predicate IsSpace(c: char) {
    c == ' ' || c == '\t' || c == '\n' || c == '\U{000B}' || c == '\U{000C}' || c == '\r'
  }

  /** Removes the leading white space (see TrimLeftDropsLeadingSpace). */
  function TrimLeft(s: string): string
  {
    if s != [] && IsSpace(s[0]) then TrimLeft(s[1..]) else s
  }

  /** Removes the trailing white space (see TrimRightDropsTrailingSpace). */
  function TrimRight(s: string): string
  {
    if s != [] && IsSpace(s[|s| - 1]) then TrimRight(s[..|s| - 1]) else s
  }

  /** strings.TrimSpace */
  function TrimSpace(s: string): string {
    TrimRight(TrimLeft(s))
  }

  /** utils.SanitizeInput */
  function SanitizeInput(s: string): string {
    TrimSpace(EscapeString(s))
  }

  /** TrimLeft keeps the suffix after the longest space-only prefix. */
  lemma {:induction false} TrimLeftDropsLeadingSpace(s: string)
    ensures |TrimLeft(s)| <= |s| && TrimLeft(s) == s[|s| - |TrimLeft(s)|..]
    ensures forall i :: 0 <= i < |s| - |TrimLeft(s)| ==> IsSpace(s[i])
    ensures TrimLeft(s) != [] ==> !IsSpace(TrimLeft(s)[0])
    decreases |s|
  {
    if s != [] && IsSpace(s[0]) {
      TrimLeftDropsLeadingSpace(s[1..]);
    }
  }

  /** TrimRight keeps the prefix before the longest space-only suffix. */
  lemma {:induction false} TrimRightDropsTrailingSpace(s: string)
    ensures |TrimRight(s)| <= |s| && TrimRight(s) == s[..|TrimRight(s)|]
    ensures forall i :: |TrimRight(s)| <= i < |s| ==> IsSpace(s[i])
    ensures TrimRight(s) != [] ==> !IsSpace(TrimRight(s)[|TrimRight(s)| - 1])
    decreases |s|
  {
    if s != [] && IsSpace(s[|s| - 1]) {
      var p := s[..|s| - 1];
      TrimRightDropsTrailingSpace(p);
      var r := TrimRight(p);
      assert r == s[..|r|];
    }
  }

  /** The five entities html.EscapeString emits. */
  predicate StartsEntity(r: string, i: nat)
    requires i <= |r|
  {
    var t := r[i..];
    HasPrefix(t, "&amp;") || HasPrefix(t, "&#39;") || HasPrefix(t, "&lt;")
    || HasPrefix(t, "&gt;") || HasPrefix(t, "&#34;")
  }

  predicate AmpersandsAreEntities(r: string) {
    forall i :: 0 <= i < |r| && r[i] == '&' ==> StartsEntity(r, i)
  }

  predicate NoMarkup(r: string) {
    forall i :: 0 <= i < |r| ==> !IsMarkup(r[i])
  }

  predicate Trimmed(r: string) {
    r == [] || (!IsSpace(r[0]) && !IsSpace(r[|r| - 1]))
  }

  lemma {:induction false} EscapedAmpersandsAreEntities(s: string)
    ensures AmpersandsAreEntities(EscapeString(s))
  {
    if s != [] {
      var e, t := EscapeChar(s[0]), EscapeString(s[1..]);
      var r := EscapeString(s);
      assert r == e + t;
      EscapedAmpersandsAreEntities(s[1..]);
      forall i | 0 <= i < |r| && r[i] == '&'
        ensures StartsEntity(r, i)
      {
        if i < |e| {
          assert e[i] == '&';
          assert IsSpecial(s[0]) && i == 0;
          assert r[i..][..|e|] == e;
          assert HasPrefix(r[i..], e);
        } else {
          assert t[i - |e|] == '&';
          assert r[i..] == t[i - |e|..];
        }
      }
    }
  }

  /** A suffix keeps every entity that starts inside it. */
  lemma SuffixKeepsEntities(x: string, k: nat)
    requires k <= |x| && AmpersandsAreEntities(x)
    ensures AmpersandsAreEntities(x[k..])
  {
    var r := x[k..];
    forall i | 0 <= i < |r| && r[i] == '&'
      ensures StartsEntity(r, i)
    {
      assert x[k + i] == '&';
      assert r[i..] == x[k + i..];
    }
  }

  /** An entity found in `x` at `i < |r|` is still whole in the trimmed prefix `r`, because it ends in a non-space. */
  lemma PrefixKeepsEntity(x: string, r: string, i: nat, e: string)
    requires |r| <= |x| && r == x[..|r|] && i < |r|
    requires forall j :: |r| <= j < |x| ==> IsSpace(x[j])
    requires e != [] && !IsSpace(e[|e| - 1]) && HasPrefix(x[i..], e)
    ensures HasPrefix(r[i..], e)
  {
    assert x[i + |e| - 1] == e[|e| - 1];
    assert r[i..][..|e|] == x[i..][..|e|];
  }

  /** Trimming the right end never cuts an entity: each entity ends in a non-space ';'. */
  lemma TrimRightKeepsEntities(x: string)
    requires AmpersandsAreEntities(x)
    ensures AmpersandsAreEntities(TrimRight(x))
  {
    var r := TrimRight(x);
    TrimRightDropsTrailingSpace(x);
    forall i | 0 <= i < |r| && r[i] == '&'
      ensures StartsEntity(r, i)
    {
      assert x[i] == '&' && StartsEntity(x, i);
      var t := x[i..];
      if HasPrefix(t, "&amp;") { PrefixKeepsEntity(x, r, i, "&amp;"); }
      else if HasPrefix(t, "&#39;") { PrefixKeepsEntity(x, r, i, "&#39;"); }
      else if HasPrefix(t, "&lt;") { PrefixKeepsEntity(x, r, i, "&lt;"); }
      else if HasPrefix(t, "&gt;") { PrefixKeepsEntity(x, r, i, "&gt;"); }
      else { PrefixKeepsEntity(x, r, i, "&#34;"); }
    }
  }

  lemma SanitizeHasNoMarkup(s: string)
    ensures NoMarkup(SanitizeInput(s))
  {
    var x := EscapeString(s);
    var l := TrimLeft(x);
    var r := TrimRight(l);
    TrimLeftDropsLeadingSpace(x);
    TrimRightDropsTrailingSpace(l);
    forall i | 0 <= i < |r| ensures !IsMarkup(r[i]) {
      assert r[i] == l[i] == x[|x| - |l| + i];
    }
  }

  lemma SanitizeAmpersandsAreEntities(s: string)
    ensures AmpersandsAreEntities(SanitizeInput(s))
  {
    var x := EscapeString(s);
    EscapedAmpersandsAreEntities(s);
    TrimLeftDropsLeadingSpace(x);
    SuffixKeepsEntities(x, |x| - |TrimLeft(x)|);
    TrimRightKeepsEntities(TrimLeft(x));
  }

  lemma SanitizeIsTrimmed(s: string)
    ensures Trimmed(SanitizeInput(s))
  {
    var l := TrimLeft(EscapeString(s));
    var r := TrimRight(l);
    TrimLeftDropsLeadingSpace(EscapeString(s));
    TrimRightDropsTrailingSpace(l);
    if r != [] {
      assert r[0] == l[0];
    }
  }

  lemma {:induction false} EscapeKeepsPlainText(s: string)
    requires forall i :: 0 <= i < |s| ==> !IsSpecial(s[i])
    ensures EscapeString(s) == s
  {
    if s != [] {
      EscapeKeepsPlainText(s[1..]);
      assert s == [s[0]] + s[1..];
    }
  }

  /** A string with nothing to escape and nothing to trim passes through unchanged. */
  lemma SanitizeKeepsPlainText(s: string)
    requires forall i :: 0 <= i < |s| ==> !IsSpecial(s[i])
    requires Trimmed(s)
    ensures SanitizeInput(s) == s
  {
    EscapeKeepsPlainText(s);
  }

  /** Trimming a string that has no surrounding white space changes nothing. */
  lemma TrimSpaceKeepsTrimmed(s: string)
    requires Trimmed(s)
    ensures TrimSpace(s) == s
  {
    assert TrimLeft(s) == s;
    assert TrimRight(s) == s;
  }

  lemma EscapeAmpersand()
    ensures EscapeString("&") == "&amp;"
  {
    assert EscapeString("&") == EscapeChar('&') + EscapeString([]);
  }

  lemma EscapeEntityAmp()
    ensures EscapeString("&amp;") == "&amp;amp;"
  {
    var tail := "amp;";
    assert forall i :: 0 <= i < |tail| ==> !IsSpecial(tail[i]);
    EscapeKeepsPlainText(tail);
    var amp := "&amp;";
    assert amp[0] == '&' && amp[1..] == tail;
    assert EscapeString(amp) == EscapeChar('&') + EscapeString(tail);
  }

  /** Sanitizing twice escapes twice: '&' becomes "&amp;" and then "&amp;amp;". */
  lemma SanitizeIsNotIdempotent(s: string)
    requires s == "&"
    ensures SanitizeInput(s) == "&amp;"
    ensures SanitizeInput(SanitizeInput(s)) == "&amp;amp;"
  {
    EscapeAmpersand();
    var once := EscapeString(s);
    TrimSpaceKeepsTrimmed(once);
    EscapeEntityAmp();
    var twice := EscapeString(once);
    TrimSpaceKeepsTrimmed(twice);
  }
}
